=== FILE: README.md ===
# xml_proofreader validation core in Dafny

xml_proofreader checks editorial XML exports of exam material: questions,
option blocks, explanations and answer keys. This project models the
validation functions of `app.py` (lines 6-89). They are pure functions over the
element stream of the parsed document:

- `extract_numbered_elements` reads the leading number of each element with a
  given local name (module `Numbering`).
- `extract_answer_keys` collects every `<number>. (<letter>)` citation in the
  `Answer` elements (module `Answers`).
- `detect_issues` reports the missing numbers, the duplicated numbers and the
  adjacent pairs that do not step by one (module `Issues`).
- `extract_questions_with_options` groups the `Option-2` texts under the
  `Question` before them (module `Grouping`).
- `validate_options` splits each question's joined option text into
  `(x) content` spans. It reports invalid labels, missing options, empty
  options and repeated contents (module `OptionCheck`).
- `build_sequence_report` lays out the findings of `detect_issues` as lines
  (module `SequenceReport`).

The parsed document is a sequence of `Document.Element` values in the
pre-order that `root.iter()` yields. Each element has an optional namespace
URI, a local name and a text; an absent text is the empty string. Python's
`str.strip()`, `\s`, `\d+` and `int()` are in module `Strings`. Each regular
expression is replaced by an explicit scanner. Lemmas state what each scanner
finds (which texts match, and that every reported match is one), and the
comments beside each scanner argue how the greedy and lazy groups resolve. Python dicts are modelled as lists of
entries in insertion order (`OptionCheck.Entries`).

For a repeated option label, line 63 assigns `extracted[label]` on every
match. So the LAST content wins (`OptionCheck.CapturedLast`), while the key
keeps the place of its first insertion (`OptionCheck.CapturedKeyOrder`).

## Model

| member | source | states |
|---|---|---|
| Strings.StripIsInfix | app.py:10 | `strip()` removes only whitespace, and only at the two ends: the result is a slice of the text with all-whitespace text on both sides |
| Strings.StripAt | app.py:10 | conversely, whenever only whitespace lies before position `p` and after position `q` and `s[p..q]` has no whitespace at either end, `strip()` gives exactly `s[p..q]` |
| Strings.StripIdempotent | app.py:63-70 | stripping again at line 70 content already stripped at line 63 changes nothing |
| Strings.StripBlank | app.py:70 | `not content.strip()` holds exactly for text made only of whitespace |
| Strings.Decimal | app.py:81-86 | `str(n)` is a non-empty digit string with no leading zero that `int()` reads back as `n` |
| Document.RawTagMatchIsUnqualified | app.py:43-49 | comparing the raw tag (Clark notation) with a plain name, as lines 43 and 49 do, matches exactly the elements that pass the local-name test of line 9 and have no namespace |
| Numbering.LeadingNumberReads | app.py:12-13 | a non-empty digit run followed by `.`, whitespace or U+200B is read as the value of the whole run, leading zeros included |
| Numbering.LeadingNumberOfDecimal | app.py:12-13 | round trip: `str(n)` followed by a separator reads back as `n` |
| Numbering.LeadingNumberNeedsSeparator | app.py:12-13 | digits at the very end of the text, or followed by something that is neither a digit nor a separator, give no number (`"12"`, `"12abc"`) |
| Numbering.LeadingNumberSound | app.py:12-13 | every number read is spelled by a digit prefix of the text that a separator follows |
| Numbering.Named | app.py:8-9 | an element is kept exactly when it is in the document and has the local name, and no more elements are kept than the document has |
| Numbering.NamedCounts | app.py:8-9 | each element occurs among those kept exactly as often as in the document when it has the local name, and never otherwise |
| Numbering.NamedAppend | app.py:8-9 | selecting by local name from a document in two parts selects from each part, in order |
| Numbering.ExtractNumbered | app.py:6-14 | `texts` and `numbers` have one entry per element with the local name, in document order; each text is that element's stripped text and each number is the leading number of that text |
| Answers.KeyAtCite | app.py:22 | a citation `<n>. (<letter>)` with a letter a-e in either case, at the start of a text, is matched whole with number `n` |
| Answers.KeyNumbersOfCitations | app.py:22-23 | round trip: the numbers found in citations written one after another are the cited numbers, in order |
| Answers.KeyAtSound | app.py:22 | every match the scanner reports has the shape of the pattern: a digit run, `.`, whitespace, `(`, a letter a-e or A-E and `)`, with the number the run spells and the length ending after the `)` |
| Answers.KeyAtRejects | app.py:22 | conversely, digits, `.` and all the whitespace after it, followed by anything other than `(` a letter a-e or A-E and `)`, is no match |
| Answers.KeyNumbersSound | app.py:22-23 | every number found is the number of a text of the pattern's shape (digits, `.`, whitespace, `(`, a letter a-e or A-E, `)`) that starts somewhere in the text |
| Answers.KeyNumbersRejectsBroken | app.py:22-23 | one digit, `.`, whitespace and a digit-free tail that is not a well-formed `(<letter>)` yield no number at all |
| Answers.KeyNumbersRejectsLetter | app.py:22-23 | `"3. (f)"` yields `[]`: the letter is outside the class |
| Answers.KeyNumbersNeedsClose | app.py:22-23 | `"3. (b"` yields `[]`: the closing `)` is required |
| Answers.KeyNumbersExample | app.py:22-23 | `"3. (b) 7. (D)"` yields `[3, 7]` |
| Answers.KeyNumbersSkipFiller | app.py:22-23 | text without digits in front of a match adds no number: `findall` skips it |
| Answers.KeyNumbersAtCitation | app.py:22-23 | a citation with any digit run and any whitespace (none included) between `.` and `(` yields its number before those of the rest of the text |
| Answers.KeyNumbersFillerExample | app.py:22-23 | `"Key: 3.(a)"` yields `[3]` |
| Answers.ExtractAnswerKeys | app.py:16-24 | one text per `Answer` element, in document order, each the element's stripped text; the flat list is the concatenation of each text's numbers |
| Answers.AnswerKeysSplit | app.py:18-23 | the flat list of a document in two parts is the flat list of the first part followed by that of the second |
| Issues.Present | app.py:28 | the present numbers are exactly those the input holds as `Some` |
| Issues.PresentAppend | app.py:28 | filtering a list in two parts filters each part, in order |
| Issues.NoneIsIgnored | app.py:28 | inserting an absent entry anywhere leaves the whole issue set unchanged |
| Issues.Max | app.py:30 | `max(valid)` is an element of the list that no element exceeds |
| Issues.Missing | app.py:29-31 | `missing` is strictly ascending and holds exactly the numbers from 1 up to some present number that are not present; 0 is never missing |
| Issues.Duplicates | app.py:32 | `duplicates` is strictly ascending and holds exactly the numbers that occur at least twice |
| Issues.NoSequenceErrorsIff | app.py:33-35 | no sequence error exactly when every adjacent pair steps by one |
| Issues.SequenceErrorsMembers | app.py:33-35 | a pair is reported exactly when it is an adjacent pair of the present numbers that does not step by one |
| Issues.SequenceErrorsSplit | app.py:33-35 | the pairs come in index order: those of the front part, the pair across the cut if it breaks the sequence, then those of the back part |
| Issues.ScanSequenceErrors | app.py:33-35 | the loop as written, appending in encounter order, computes the recursive definition |
| Issues.DetectIssues | app.py:26-36 | no present number gives no issue at all; `missing` and `duplicates` are ascending with exactly the members described above; the sequence errors are those of the present numbers |
| Issues.RunIsDistinct | app.py:32 | a run of consecutive numbers holds no value twice |
| Issues.SteppingIsRun | app.py:33-35 | a list without sequence errors is a run of consecutive numbers |
| Issues.RunFromAboveOneMissesOne | app.py:29-31 | a run that starts above 1 reports 1 as missing |
| Issues.NoIssuesIff | app.py:26-36 | no issue of any kind exactly when the present numbers are none, or count up by one from 1 (or from 0) |
| Issues.CountingIsClear | app.py:26-36 | any list whose present numbers are 1..n, absent entries anywhere among them, has no issue |
| Issues.AscendingUnique | app.py:31-32 | a strictly ascending list is determined by its members, so "sorted set" is a complete description |
| Issues.DetectIssuesExample | app.py:26-36 | `[1, 3, 3, 5]` misses `[2, 4]`, repeats `[3]` and has the sequence errors `[(1, 3), (3, 3), (3, 5)]` |
| Grouping.QuestionNumberOfNumbered | app.py:47 | a question written `<n>.<rest>` is numbered `str(n)` |
| Grouping.QuestionNumberUnnumbered | app.py:47 | a question without any '.' is numbered "?" |
| Grouping.Classify | app.py:43-50 | an element is a question exactly when its raw tag is `Question` and an option exactly when it is `Option-2`; its text is the stripped text |
| Grouping.NamespacedIsSkipped | app.py:43-49 | an element in a namespace is neither a question nor an option to the grouper |
| Grouping.RunMatchesReference | app.py:41-52 | from any state the loop yields what it had, then the pending question with every option up to the next question, then one segment per later question |
| Grouping.GroupItems | app.py:38-53 | the records are the segments of the element stream: each question paired with the options up to the next question, numbered from its text |
| Grouping.GroupQuestions | app.py:38-53 | the records are the numbered segments of the document's question and option items, and each is well formed |
| Grouping.GroupedRecordsWellFormed | app.py:44-45 | every record has non-empty question text, at least one option and the number read from its text, and there is at most one record per question |
| Grouping.LeadingOptionsDiscarded | app.py:41-50 | options before the first question never reach a record |
| Grouping.QuestionWithoutOptionsDropped | app.py:44-48 | a question with empty text, or with no option before the next question, yields no record |
| Grouping.SingleQuestion | app.py:42-52 | one question followed by its options yields one record holding exactly those option texts |
| OptionCheck.Flatten | app.py:58 | the flattened text has the length of the blocks joined with spaces, holds no newline or tab, and has a space wherever the joined text has a newline or tab and the joined text's character everywhere else |
| OptionCheck.FlattenSingle | app.py:58 | a single block free of newlines and tabs is its own flattened text |
| OptionCheck.ContentEnd | app.py:59 | the lazy content group stops at the first position from which whitespace leads to the next marker or the end |
| OptionCheck.SpanAt | app.py:59-60 | a match at a marker takes its label, ends at the next marker or the end of the text with no marker in between, and its content is the stripped text after the marker |
| OptionCheck.LabelsAgree | app.py:60-64 | the labels of the spans are exactly the labels `re.findall(r"\(([a-z])\)")` finds, in order |
| OptionCheck.Put | app.py:63 | storing under a key keeps the keys distinct and in place, appends a new key, and makes the key hold the new value |
| OptionCheck.PutOther | app.py:63 | storing under one key leaves every other key's value alone |
| OptionCheck.CapturedLast | app.py:62-63 | a label a-d holds the stripped content of its last span |
| OptionCheck.CapturedAbsent | app.py:62-63 | a label outside a-d, or one no span carries, is not in the dict |
| OptionCheck.CapturedKeysCarried | app.py:62-63 | every key of the dict is the label of some span |
| OptionCheck.CapturedHasCarried | app.py:62-63 | every label a-d that some span carries is a key of the dict |
| OptionCheck.CapturedKeyOrder | app.py:62-63 | the keys stand in the order of each label's first span, whatever later spans overwrite |
| OptionCheck.SortedSet | app.py:66 | `sorted(set(labels))` is ascending with exactly the members of the list |
| OptionCheck.Invalid | app.py:65 | the invalid labels are exactly the labels outside a-d |
| OptionCheck.MissingLabels | app.py:67 | the missing options are ascending and are exactly the letters a-d that the dict lacks |
| OptionCheck.NoEmptiesIff | app.py:69-70 | no empty-option issue exactly when every entry has content after stripping |
| OptionCheck.EmptiesSound | app.py:69-70 | every empty-option issue names an entry whose content strips to nothing |
| OptionCheck.EmptiesAppend | app.py:69-70 | the empty-option issues follow the dict's order: the issues of the front entries come before those of the later ones |
| OptionCheck.EmptiesComplete | app.py:69-70 | every entry whose content strips to nothing is reported |
| OptionCheck.RepeatsMatchReference | app.py:71-74 | the `seen` loop reports, for each entry whose content an earlier entry has, that content with the label of the earliest such entry, in dict order |
| OptionCheck.SeenAfterFirst | app.py:71-74 | `seen` maps each content met to the label of the first entry that had it |
| OptionCheck.NoRepeatsIff | app.py:71-74 | no duplicate-content issue exactly when the contents are pairwise distinct |
| OptionCheck.NoIssuesIffClean | app.py:64-75 | a question has no issue exactly when every marker is a-d, each of a-d is captured, no captured content is blank and no two are equal |
| OptionCheck.QuestionIssues | app.py:57-74 | a question raises no issue exactly when its flattened option text is clean: every marker a-d, each of a-d captured, no blank content, no two contents equal |
| OptionCheck.ReportLinesCover | app.py:75-76 | no report line exactly when no question has issues, and each line opens with "Question " |
| OptionCheck.ValidateOptionsClear | app.py:77 | the result is "No option issues found." exactly when no question has any issue |
| SequenceReport.AllClearIff | app.py:82-88 | the all-clear line is among the report's lines exactly when there is no issue of any kind |
| SequenceReport.ErrorLinesListed | app.py:81-88 | the report has the two fixed lines, one line per non-empty `missing` and `duplicates`, one line per sequence error and the all-clear line when clear; every sequence error has its line |
| SequenceReport.ErrorLinesInOrder | app.py:84-86 | the sequence-error lines follow the fixed lines in the order of the errors, the k-th line naming the k-th error |
| SequenceReport.ReportOfDetectedIssues | app.py:79-89 | on the issues of `detect_issues`, the all-clear line appears exactly when the present numbers are none or count up by one from 0 or 1 |
| SequenceReport.CountLineReadsBack | app.py:81 | the count line ends in a decimal that reads back as the number of present entries |

## Left out

- The Streamlit front end, uploads, the temporary file and its removal (app.py:91-147): I/O.
- XML parsing (`etree.parse`, `ET.parse`) and `etree.QName`: library calls. The model takes the parsed element stream as input. The stream holds elements only. lxml's `iter()` also yields comments and processing instructions, whose tag is not a string, so `etree.QName` at line 9 raises `ValueError` and the source fails on such documents; the model assumes a document has none.
- Numbering.LeadingNumber and Answers.KeyAt read a digit run of any length. Python 3.11 and later (and the 3.10.7, 3.9.14 and 3.8.14 security releases) make `int()` raise `ValueError` on a decimal string longer than 4300 digits (`sys.int_info.default_max_str_digits`), so `int(match.group(1))` at line 13 and `int(m[0])` at line 23 fail on such text; the model returns the number instead. The limit depends on the interpreter's version and settings, so it is left out.
- Issues.Missing returns at once for any maximum. `list(range(1, max(valid) + 1))` at line 30 builds `max(valid)` integers, so a huge leading number (a 13-digit ISBN, say) exhausts memory there. Time and memory are not modelled.
- `\d` is modelled as the ASCII digits. Python also matches other Unicode decimal digits, and `int()` reads them.
- The regular-expression engine itself: each pattern is replaced by a scanner. The comments beside each scanner argue why backtracking cannot change the result.
- `Answers.ExtractAnswerKeys` and `Numbering.ExtractNumbered` model the single loop of the source as a filter followed by a map. Both visit the same elements in the same order.
- `OptionCheck.ValidateOptions` and `SequenceReport.BuildSequenceReport` render the wording of the source. Lemmas state only that the all-clear line appears exactly when nothing is wrong, the number and order of the lines, and that the count reads back. No lemma states that the rest of the wording parses back.

=== FILE: answers.dfy ===
/** `extract_answer_keys` (app.py:16-24): every `<number>. (<letter>)`
    citation inside the text of each `Answer` element, as one flat list. */
module Answers {
  import opened Maybe
  import opened Strings
  import opened Document
  import opened Numbering

  /** The class `[a-eA-E]`. */
  predicate IsKeyLetter(c: char) {
    'a' <= c <= 'e' || 'A' <= c <= 'E'
  }

  /** A match of `(\d+)\.\s*\(([a-eA-E])\)` at the start of `s`: the number
      of group 1 and the length of the match. Neither the greedy `\d+` nor
      the greedy `\s*` can profit from backtracking (a shorter run is
      followed by a digit where `.` is needed, or by whitespace where `(` is
      needed), so both runs are taken whole. */
  function KeyAt(s: string): (r: Option<(nat, nat)>)
    ensures r.Some? ==> 5 <= r.value.1 <= |s|
  {
    var d := DigitRun(s);
    if d == 0 || d == |s| || s[d] != '.' then None
    else
      var w := d + 1 + SpaceRun(s[d + 1..]);
      if w + 3 <= |s| && s[w] == '(' && IsKeyLetter(s[w + 1]) && s[w + 2] == ')'
      then Some((Value(s[..d]), w + 3))
      else None
  }

  /** `re.findall` of that pattern: tried at each position from the left;
      after a match the search resumes where the match ended. */
  function KeyNumbers(s: string): seq<nat>
    decreases |s|
  {
    if s == [] then []
    else match KeyAt(s)
      case Some(m) => [m.0] + KeyNumbers(s[m.1..])
      case None => KeyNumbers(s[1..])
  }

  /** The pattern read off directly: `s` opens with a digit run `s[..d]`,
      a '.', the whitespace `s[d + 1..w]`, '(', a letter a-e or A-E and
      ')', and `n` is the value of the digit run. */
  predicate KeyMatch(s: string, n: nat, d: nat, w: nat) {
    && 0 < d < w && w + 3 <= |s|
    && AllDigits(s[..d]) && s[d] == '.' && AllSpace(s[d + 1..w])
    && s[w] == '(' && IsKeyLetter(s[w + 1]) && s[w + 2] == ')'
    && n == Value(s[..d])
  }

  /** Every match the scanner reports has the shape of the pattern, and its
      length ends right after the ')'. */
  lemma KeyAtSound(s: string)
    requires KeyAt(s).Some?
    ensures var d := DigitRun(s);
            var w := KeyAt(s).value.1 - 3;
            KeyMatch(s, KeyAt(s).value.0, d, w)
  {
    var d := DigitRun(s);
    var n := SpaceRun(s[d + 1..]);
    var w := d + 1 + n;
    assert s[d + 1..w] == s[d + 1..][..n];
  }

  /** Some match of the pattern starting in `s` yields the number `n`. */
  ghost predicate KeyFoundIn(s: string, n: nat)
    decreases |s|
  {
    s != [] && ((exists d: nat, w: nat :: KeyMatch(s, n, d, w)) || KeyFoundIn(s[1..], n))
  }

  /** A match found in a suffix of `s` is a match found in `s`. */
  lemma {:induction false} KeyFoundInSuffix(s: string, j: nat, n: nat)
    requires j <= |s| && KeyFoundIn(s[j..], n)
    ensures KeyFoundIn(s, n)
    decreases j
  {
    if j == 0 {
      assert s[0..] == s;
    } else {
      assert s[1..][j - 1..] == s[j..];
      KeyFoundInSuffix(s[1..], j - 1, n);
    }
  }

  /** Every number found is the number of a match starting somewhere in `s`. */
  lemma {:induction false} KeyNumbersSound(s: string, k: nat)
    requires k < |KeyNumbers(s)|
    ensures KeyFoundIn(s, KeyNumbers(s)[k])
    decreases |s|
  {
    var m := KeyAt(s);
    if m.Some? {
      KeyAtSound(s);
      var rest := KeyNumbers(s[m.value.1..]);
      assert KeyNumbers(s) == [m.value.0] + rest;
      if k > 0 {
        KeyNumbersSound(s[m.value.1..], k - 1);
        KeyFoundInSuffix(s, m.value.1, rest[k - 1]);
      }
    } else {
      assert KeyNumbers(s) == KeyNumbers(s[1..]);
      KeyNumbersSound(s[1..], k);
      KeyFoundInSuffix(s, 1, KeyNumbers(s)[k]);
    }
  }

  /** Text without digits before a citation hides nothing and adds nothing:
      no match can start in it. */
  lemma {:induction false} KeyNumbersSkipFiller(f: string, s: string)
    requires forall k :: 0 <= k < |f| ==> !IsDigit(f[k])
    ensures KeyNumbers(f + s) == KeyNumbers(s)
    decreases |f|
  {
    if f == [] {
      assert f + s == s;
    } else {
      assert (f + s)[0] == f[0];
      DigitRunIs(f + s, 0);
      assert (f + s)[1..] == f[1..] + s;
      KeyNumbersSkipFiller(f[1..], s);
    }
  }

  /** A citation with any whitespace between the '.' and the '(' (none
      included) is found at the start of the text, and the search goes on
      right after its ')'. */
  lemma KeyNumbersAtCitation(ds: string, ws: string, l: char, rest: string)
    requires ds != [] && AllDigits(ds) && AllSpace(ws) && IsKeyLetter(l)
    ensures KeyNumbers(ds + "." + ws + "(" + [l] + ")" + rest) == [Value(ds)] + KeyNumbers(rest)
  {
    var s := ds + "." + ws + "(" + [l] + ")" + rest;
    var d := |ds|;
    var w := d + 1 + |ws|;
    assert s[..d] == ds;
    assert s[d] == '.';
    DigitRunIs(s, d);
    var t := s[d + 1..];
    assert t[..|ws|] == ws;
    assert t[|ws|] == '(';
    SpaceRunIs(t, |ws|);
    assert s[w] == '(' && s[w + 1] == l && s[w + 2] == ')';
    assert KeyAt(s) == Some((Value(ds), w + 3));
    assert s[w + 3..] == rest;
  }

  /** `"Key: 3.(a)"` yields `[3]`: filler before the citation, no space
      after the '.'. */
  lemma KeyNumbersFillerExample()
    ensures KeyNumbers("Key: 3.(a)") == [3]
  {
    assert "Key: 3.(a)" == "Key: " + ("3" + "." + "" + "(" + ['a'] + ")" + "");
    KeyNumbersSkipFiller("Key: ", "3" + "." + "" + "(" + ['a'] + ")" + "");
    KeyNumbersAtCitation("3", "", 'a', "");
    assert Value("3") == 3;
  }

  /** The converse of a citation: digits, '.', and all the whitespace that
      follows, then anything other than '(' a letter a-e or A-E and ')', is
      no match at the start of the text. */
  lemma KeyAtRejects(ds: string, ws: string, tail: string)
    requires ds != [] && AllDigits(ds) && AllSpace(ws)
    requires tail == [] || !IsSpace(tail[0])
    requires !(|tail| >= 3 && tail[0] == '(' && IsKeyLetter(tail[1]) && tail[2] == ')')
    ensures KeyAt(ds + ("." + ws + tail)) == None
  {
    var s := ds + ("." + ws + tail);
    var d := |ds|;
    assert s[..d] == ds;
    assert s[d] == '.';
    DigitRunIs(s, d);
    var t := s[d + 1..];
    assert t == ws + tail;
    assert t[..|ws|] == ws;
    assert |ws| < |t| ==> t[|ws|] == tail[0];
    SpaceRunIs(t, |ws|);
    assert s[d + 1 + |ws|..] == tail;
  }

  /** A broken citation yields nothing: one digit, '.', whitespace, then a
      digit-free tail that is not '(' a letter a-e or A-E and ')'. So
      `"3. (f)"` and `"3. (b"` give no key. */
  lemma KeyNumbersRejectsBroken(c: char, ws: string, tail: string)
    requires IsDigit(c) && AllSpace(ws)
    requires tail == [] || !IsSpace(tail[0])
    requires !(|tail| >= 3 && tail[0] == '(' && IsKeyLetter(tail[1]) && tail[2] == ')')
    requires forall k :: 0 <= k < |tail| ==> !IsDigit(tail[k])
    ensures KeyNumbers([c] + ("." + ws + tail)) == []
  {
    KeyAtRejects([c], ws, tail);
    NoMatchAtStart(c, "." + ws + tail);
    NoDigitsNoKeys(ws, tail);
  }

  /** Where no match starts, the search moves on by one character. */
  lemma NoMatchAtStart(c: char, t: string)
    requires KeyAt([c] + t) == None
    ensures KeyNumbers([c] + t) == KeyNumbers(t)
  {
    assert ([c] + t)[1..] == t;
  }

  /** '.', whitespace and a digit-free tail hold no key. */
  lemma NoDigitsNoKeys(ws: string, tail: string)
    requires AllSpace(ws)
    requires forall k :: 0 <= k < |tail| ==> !IsDigit(tail[k])
    ensures KeyNumbers("." + ws + tail) == []
  {
    assert "." + ws + tail == "." + (ws + tail);
    KeyNumbersSkipFiller(".", ws + tail);
    KeyNumbersSkipFiller(ws, tail);
    assert tail + [] == tail;
    KeyNumbersSkipFiller(tail, []);
  }

  /** `"3. (f)"`: a letter outside a-e in the parentheses is no match. */
  lemma KeyNumbersRejectsLetter()
    ensures KeyNumbers("3. (f)") == []
  {
    assert "3. (f)" == ['3'] + ("." + " " + "(f)");
    KeyNumbersRejectsBroken('3', " ", "(f)");
  }

  /** `"3. (b"`: a citation without its closing ')' is no match. */
  lemma KeyNumbersNeedsClose()
    ensures KeyNumbers("3. (b") == []
  {
    assert "3. (b" == ['3'] + ("." + " " + "(b");
    KeyNumbersRejectsBroken('3', " ", "(b");
  }

  /** An answer citation `<number>. (<letter>)` as an editor writes it. */
  datatype Citation = Citation(number: nat, letter: char)

  function Cite(c: Citation): string {
    Decimal(c.number) + ". (" + [c.letter] + ")"
  }

  /** Citations written one after another, separated by a space. */
  function Citations(cs: seq<Citation>): string {
    if cs == [] then []
    else if |cs| == 1 then Cite(cs[0])
    else Cite(cs[0]) + " " + Citations(cs[1..])
  }

  function CitedNumbers(cs: seq<Citation>): (ns: seq<nat>)
    ensures |ns| == |cs|
    ensures forall k :: 0 <= k < |cs| ==> ns[k] == cs[k].number
  {
    if cs == [] then [] else [cs[0].number] + CitedNumbers(cs[1..])
  }

  /** A citation at the start of the text is matched whole. */
  lemma KeyAtCite(c: Citation, rest: string)
    requires IsKeyLetter(c.letter)
    ensures KeyAt(Cite(c) + rest) == Some((c.number, |Cite(c)|))
  {
    var ds := Decimal(c.number);
    var s := Cite(c) + rest;
    var d := |ds|;
    assert s[..d] == ds;
    assert s[d] == '.' && s[d + 1] == ' ' && s[d + 2] == '(' && s[d + 3] == c.letter && s[d + 4] == ')';
    DigitRunIs(s, d);
    assert s[d + 1..][..1] == " ";
    SpaceRunIs(s[d + 1..], 1);
  }

  /** Round trip: the numbers found in written citations are the cited
      numbers, in order, whatever the letter's case. */
  lemma {:induction false} KeyNumbersOfCitations(cs: seq<Citation>)
    requires forall k :: 0 <= k < |cs| ==> IsKeyLetter(cs[k].letter)
    ensures KeyNumbers(Citations(cs)) == CitedNumbers(cs)
    decreases |cs|
  {
    if cs == [] {
    } else if |cs| == 1 {
      KeyAtCite(cs[0], []);
      assert Cite(cs[0]) + [] == Cite(cs[0]);
      assert Cite(cs[0])[|Cite(cs[0])|..] == [];
    } else {
      var tail := Citations(cs[1..]);
      var s := Cite(cs[0]) + " " + tail;
      assert s == Cite(cs[0]) + (" " + tail);
      KeyAtCite(cs[0], " " + tail);
      assert s[|Cite(cs[0])|..] == " " + tail;
      assert KeyAt(" " + tail) == None;
      assert (" " + tail)[1..] == tail;
      KeyNumbersOfCitations(cs[1..]);
    }
  }

  /** Example: "3. (b) 7. (D)" yields [3, 7]. */
  lemma KeyNumbersExample()
    ensures KeyNumbers("3. (b) 7. (D)") == [3, 7]
  {
    var cs := [Citation(3, 'b'), Citation(7, 'D')];
    assert Citations(cs) == "3. (b) 7. (D)";
    KeyNumbersOfCitations(cs);
  }

  /** The numbers of several texts, concatenated in order. */
  function AllKeyNumbers(texts: seq<string>): seq<nat> {
    if texts == [] then [] else KeyNumbers(texts[0]) + AllKeyNumbers(texts[1..])
  }

  /** `extract_answer_keys(root)`: the stripped text of each `Answer`
      element (by local name) and the flat list of every number cited. */
  function ExtractAnswerKeys(doc: seq<Element>): (r: (seq<string>, seq<nat>))
    ensures |r.0| == |Named(doc, "Answer")|
    ensures forall k :: 0 <= k < |r.0| ==> r.0[k] == Strip(Named(doc, "Answer")[k].text)
    ensures r.1 == AllKeyNumbers(r.0)
  {
    var texts := StrippedTexts(Named(doc, "Answer"));
    (texts, AllKeyNumbers(texts))
  }

  lemma {:induction false} AllKeyNumbersAppend(t1: seq<string>, t2: seq<string>)
    ensures AllKeyNumbers(t1 + t2) == AllKeyNumbers(t1) + AllKeyNumbers(t2)
    decreases |t1|
  {
    if t1 == [] {
      assert t1 + t2 == t2;
    } else {
      assert (t1 + t2)[1..] == t1[1..] + t2;
      AllKeyNumbersAppend(t1[1..], t2);
    }
  }

  /** The flat list of a document split in two is the two flat lists joined:
      each element contributes its own numbers, in document order. */
  lemma AnswerKeysSplit(d1: seq<Element>, d2: seq<Element>)
    ensures ExtractAnswerKeys(d1 + d2).1 == ExtractAnswerKeys(d1).1 + ExtractAnswerKeys(d2).1
  {
    var n1, n2 := Named(d1, "Answer"), Named(d2, "Answer");
    NamedAppend(d1, d2, "Answer");
    StrippedTextsAppend(n1, n2);
    AllKeyNumbersAppend(StrippedTexts(n1), StrippedTexts(n2));
  }
}

=== FILE: document.dfy ===
/** The parsed XML document as the validators see it: the elements in the
    pre-order that `root.iter()` yields, root first. */
module Document {
  import opened Maybe

  /** One element. `namespace` is the namespace URI of a qualified name;
      `text` is the element's leading text, with an absent text read as "",
      which is how every reader of it in app.py treats `None`. */
  datatype Element = Element(namespace: Option<string>, local: string, text: string)

  /** The tag as both XML libraries report it: Clark notation `{uri}local`
      for a qualified name, the bare local name otherwise. */
  function Tag(e: Element): string {
    match e.namespace
    case Some(uri) => "{" + uri + "}" + e.local
    case None => e.local
  }

  /** The sequence extractors compare the local name, ignoring any namespace
      (`etree.QName(elem.tag).localname == tag_name`). */
  predicate HasLocalName(e: Element, name: string) {
    e.local == name
  }

  /** The question grouper compares the raw tag (`elem.tag == "Question"`). */
  predicate HasTag(e: Element, name: string) {
    Tag(e) == name
  }

  /** For a name that is not itself in Clark notation, a raw-tag match is a
      local-name match on an element with no namespace: a namespaced
      `Question` is seen by the sequence check and missed by the grouper. */
  lemma RawTagMatchIsUnqualified(e: Element, name: string)
    requires name == [] || name[0] != '{'
    ensures HasTag(e, name) <==> e.namespace == None && HasLocalName(e, name)
  {
    if e.namespace.Some? {
      assert Tag(e)[0] == '{';
    }
  }
}

=== FILE: grouping.dfy ===
/** `extract_questions_with_options` (app.py:38-53): one pass over the
    elements that collects, for each `Question`, the `Option-2` texts that
    follow it up to the next `Question`. */
module Grouping {
  import opened Maybe
  import opened Strings
  import opened Document

  /** One entry of `questions_data`: `(qno, question, options)`. */
  datatype QuestionRecord = QuestionRecord(number: string, question: string, options: seq<string>)

  /** Index of the first '.' in `q`, or |q| when there is none. */
  function FirstDot(q: string): (i: nat)
    ensures i <= |q|
    ensures forall j :: 0 <= j < i ==> q[j] != '.'
    ensures i < |q| ==> q[i] == '.'
    decreases |q|
  {
    if q == [] then 0
    else if q[0] == '.' then 0
    else
      var i := 1 + FirstDot(q[1..]);
      assert forall j :: 1 <= j < i ==> q[j] == q[1..][j - 1];
      i
  }

  /** `current_qno`: the stripped text before the first '.', or "?" when the
      question holds no '.'. */
  function QuestionNumber(q: string): string {
    if '.' in q then Strip(q[..FirstDot(q)]) else "?"
  }

  /** A question written as `<n>. <text>` is numbered `str(n)`. */
  lemma QuestionNumberOfNumbered(n: nat, rest: string)
    ensures QuestionNumber(Decimal(n) + "." + rest) == Decimal(n)
  {
    var q := Decimal(n) + "." + rest;
    var ds := Decimal(n);
    assert q[|ds|] == '.';
    assert '.' !in ds by {
      assert forall j :: 0 <= j < |ds| ==> IsDigit(ds[j]);
    }
    assert forall j :: 0 <= j < |ds| ==> q[j] == ds[j] && IsDigit(ds[j]);
    assert FirstDot(q) == |ds|;
    assert q[..|ds|] == ds;
    assert !IsSpace(ds[0]) && !IsSpace(ds[|ds| - 1]);
    StripUnpadded(ds);
  }

  /** A question with no '.' anywhere is numbered "?". */
  lemma QuestionNumberUnnumbered(q: string)
    requires forall j :: 0 <= j < |q| ==> q[j] != '.'
    ensures QuestionNumber(q) == "?"
  {
    assert '.' !in q;
  }

  /** `e.text.strip() if e.text else ""`, with an absent text read as "". */
  function Content(e: Element): string {
    Strip(e.text)
  }

  /** What the loop of lines 42-50 sees of one element: the stripped text of
      a `Question` or of an `Option-2` (tags compared raw), or nothing. */
  datatype Item = QuestionText(text: string) | OptionText(text: string) | Skipped

  function Classify(e: Element): (it: Item)
    ensures it.QuestionText? <==> HasTag(e, "Question")
    ensures it.OptionText? <==> HasTag(e, "Option-2")
    ensures !it.Skipped? ==> it.text == Strip(e.text)
  {
    if HasTag(e, "Question") then QuestionText(Content(e))
    else if HasTag(e, "Option-2") then OptionText(Content(e))
    else Skipped
  }

  function Items(es: seq<Element>): (its: seq<Item>)
    ensures |its| == |es|
    ensures forall k :: 0 <= k < |es| ==> its[k] == Classify(es[k])
  {
    seq(|es|, k requires 0 <= k < |es| => Classify(es[k]))
  }

  /** An element in a namespace is never seen: its raw tag is in Clark
      notation and matches neither name. */
  lemma NamespacedIsSkipped(e: Element)
    requires e.namespace.Some?
    ensures Classify(e) == Skipped
  {
    RawTagMatchIsUnqualified(e, "Question");
    RawTagMatchIsUnqualified(e, "Option-2");
  }

  /** A question's text with the options collected for it. The loop
      computes `qno` from the text alongside, so numbering is applied to
      the finished blocks (see `Numbered`). */
  datatype Block = Block(question: string, options: seq<string>)

  /** The block for a question and its options, when line 44's test
      `current_question and current_options` lets it through: the question
      exists with non-empty text and at least one option was seen. */
  function Pending(question: Option<string>, options: seq<string>): seq<Block> {
    if question.Some? && question.value != [] && options != [] then [Block(question.value, options)]
    else []
  }

  /** Each block as a `(qno, question, options)` record. */
  function Numbered(bs: seq<Block>): (rs: seq<QuestionRecord>)
    ensures |rs| == |bs|
    ensures forall k :: 0 <= k < |bs| ==>
              rs[k] == QuestionRecord(QuestionNumber(bs[k].question), bs[k].question, bs[k].options)
  {
    seq(|bs|, k requires 0 <= k < |bs| => QuestionRecord(QuestionNumber(bs[k].question), bs[k].question, bs[k].options))
  }

  /** What line 44 guarantees of a stored block. */
  predicate Kept(b: Block) {
    b.question != [] && b.options != []
  }

  /** What line 44 guarantees of a stored record, with `qno` derived from its text. */
  predicate WellFormed(r: QuestionRecord) {
    r.question != [] && r.options != [] && r.number == QuestionNumber(r.question)
  }

  /** The loop's state: `questions_data`, `current_question` (None before
      the first `Question`) and `current_options`. `current_qno` is always
      `QuestionNumber` of `current_question`, so it is not kept apart. */
  datatype Grouper = Grouper(done: seq<Block>, question: Option<string>, options: seq<string>)

  const Start := Grouper([], None, [])

  /** One iteration of the loop. */
  function Step(g: Grouper, it: Item): Grouper {
    match it
    case QuestionText(q) => Grouper(g.done + Pending(g.question, g.options), Some(q), [])
    case OptionText(o) => Grouper(g.done, g.question, g.options + [o])
    case Skipped => g
  }

  function Run(g: Grouper, its: seq<Item>): Grouper
    decreases |its|
  {
    if its == [] then g else Run(Step(g, its[0]), its[1..])
  }

  /** Lines 51-52: the last question is flushed after the loop. */
  function Flushed(g: Grouper): seq<Block> {
    g.done + Pending(g.question, g.options)
  }

  // ---------------------------------------------------------------------
  // A reference definition by segments.

  /** Index of the first question in `its`, or |its|. */
  function FirstQuestion(its: seq<Item>): (i: nat)
    ensures i <= |its|
    ensures forall j :: 0 <= j < i ==> !its[j].QuestionText?
    ensures i < |its| ==> its[i].QuestionText?
    decreases |its|
  {
    if its == [] then 0
    else if its[0].QuestionText? then 0
    else
      var i := 1 + FirstQuestion(its[1..]);
      assert forall j :: 1 <= j < i ==> its[j] == its[1..][j - 1];
      i
  }

  /** The option texts of `its`, in order. */
  function OptionTexts(its: seq<Item>): seq<string>
    decreases |its|
  {
    if its == [] then []
    else (if its[0].OptionText? then [its[0].text] else []) + OptionTexts(its[1..])
  }

  function CountQuestions(its: seq<Item>): nat
    decreases |its|
  {
    if its == [] then 0 else (if its[0].QuestionText? then 1 else 0) + CountQuestions(its[1..])
  }

  /** Each question with non-empty text, paired with the option texts
      between it and the next question, kept when there is at least one
      such option; an item that is not a question opens no segment, so
      anything before the first question is in none. */
  function Reference(its: seq<Item>): seq<Block>
    decreases |its|
  {
    if its == [] then []
    else Segment(its[0], its[1..]) + Reference(its[1..])
  }

  /** The segment a question opens, with the options of `after` up to the
      next question. */
  function Segment(it: Item, after: seq<Item>): seq<Block> {
    if it.QuestionText? then Pending(Some(it.text), OptionTexts(after[..FirstQuestion(after)])) else []
  }

  /** Every segment record has question text and options, its number read
      from its text, and there is at most one per question. */
  lemma ReferenceWellFormed(its: seq<Item>)
    ensures |Reference(its)| <= CountQuestions(its)
    ensures forall k :: 0 <= k < |Reference(its)| ==> Kept(Reference(its)[k])
  {
    ReferenceCount(its);
    ReferenceKept(its);
  }

  /** Each question opens at most one segment. */
  lemma {:induction false} ReferenceCount(its: seq<Item>)
    ensures |Reference(its)| <= CountQuestions(its)
    decreases |its|
  {
    if its != [] {
      ReferenceCount(its[1..]);
    }
  }

  /** Every block passed line 44's test. */
  predicate AllKept(bs: seq<Block>) {
    forall k :: 0 <= k < |bs| ==> Kept(bs[k])
  }

  lemma KeptAppend(p: seq<Block>, q: seq<Block>)
    requires AllKept(p) && AllKept(q)
    ensures AllKept(p + q)
  {
    assert forall k :: |p| <= k < |p + q| ==> (p + q)[k] == q[k - |p|];
  }

  /** Every segment passed line 44's test. */
  lemma {:induction false} ReferenceKept(its: seq<Item>)
    ensures AllKept(Reference(its))
    decreases |its|
  {
    if its != [] {
      ReferenceKept(its[1..]);
      KeptAppend(Segment(its[0], its[1..]), Reference(its[1..]));
    }
  }

  /** Past a non-question, the first question is one further on, and the
      options before it are that element's own option text, if any, then
      those before the first question of the rest. */
  lemma OptionsBeforeFirst(its: seq<Item>)
    requires its != [] && !its[0].QuestionText?
    ensures FirstQuestion(its) == 1 + FirstQuestion(its[1..])
    ensures OptionTexts(its[..FirstQuestion(its)]) ==
            (if its[0].OptionText? then [its[0].text] else []) + OptionTexts(its[1..][..FirstQuestion(its[1..])])
  {
    var j := FirstQuestion(its[1..]);
    assert its[..1 + j][1..] == its[1..][..j];
  }

  /** The same for any prefix without a question. */
  lemma {:induction false} ReferenceSkipsPrefix(its: seq<Item>, n: nat)
    requires n <= FirstQuestion(its)
    ensures Reference(its[n..]) == Reference(its)
    decreases n
  {
    if n > 0 {
      ReferenceSkipsPrefix(its, n - 1);
      assert its[n - 1..][1..] == its[n..];
    }
  }

  /** A question at the front opens the first segment. */
  lemma ReferenceAtQuestion(q: string, its: seq<Item>)
    ensures Reference([QuestionText(q)] + its) ==
            Pending(Some(q), OptionTexts(its[..FirstQuestion(its)])) + Reference(its)
  {
    assert ([QuestionText(q)] + its)[1..] == its;
  }

  /** Running from `g` over `its` gives what is already done, then the
      pending question with every option up to the next question, then the
      segments of the rest. */
  predicate RunAgrees(g: Grouper, its: seq<Item>) {
    Flushed(Run(g, its)) ==
    g.done + Pending(g.question, g.options + OptionTexts(its[..FirstQuestion(its)])) + Reference(its)
  }

  /** The step over a question: the pending block is flushed and the
      question opens the first segment. */
  lemma QuestionStepAgrees(g: Grouper, its: seq<Item>)
    requires its != [] && its[0].QuestionText?
    requires RunAgrees(Step(g, its[0]), its[1..])
    ensures RunAgrees(g, its)
  {
    var it, tail := its[0], its[1..];
    var h := Step(g, it);
    var later := OptionTexts(tail[..FirstQuestion(tail)]);
    var before := Pending(g.question, g.options);
    var now := Pending(Some(it.text), later);
    calc {
      Flushed(Run(g, its));
      Flushed(Run(h, tail));
      h.done + Pending(h.question, h.options + later) + Reference(tail);
      { assert h == Grouper(g.done + before, Some(it.text), []);
        assert [] + later == later; }
      (g.done + before) + now + Reference(tail);
      g.done + before + (now + Reference(tail));
      { assert its == [QuestionText(it.text)] + tail;
        ReferenceAtQuestion(it.text, tail); }
      g.done + before + Reference(its);
      { assert its[..FirstQuestion(its)] == [];
        assert g.options + OptionTexts([]) == g.options; }
      g.done + Pending(g.question, g.options + OptionTexts(its[..FirstQuestion(its)])) + Reference(its);
    }
  }

  /** The step over anything else: an option joins the pending options, and
      both sides pass over a skipped element. */
  lemma OtherStepAgrees(g: Grouper, its: seq<Item>)
    requires its != [] && !its[0].QuestionText?
    requires RunAgrees(Step(g, its[0]), its[1..])
    ensures RunAgrees(g, its)
  {
    var it, tail := its[0], its[1..];
    var h := Step(g, it);
    var later := OptionTexts(tail[..FirstQuestion(tail)]);
    var own := if it.OptionText? then [it.text] else [];
    calc {
      Flushed(Run(g, its));
      Flushed(Run(h, tail));
      h.done + Pending(h.question, h.options + later) + Reference(tail);
      { assert h == Grouper(g.done, g.question, g.options + own);
        assert (g.options + own) + later == g.options + (own + later); }
      g.done + Pending(g.question, g.options + (own + later)) + Reference(tail);
      { OptionsBeforeFirst(its); }
      g.done + Pending(g.question, g.options + OptionTexts(its[..FirstQuestion(its)])) + Reference(tail);
      { assert Segment(it, tail) == []; }
      g.done + Pending(g.question, g.options + OptionTexts(its[..FirstQuestion(its)])) + Reference(its);
    }
  }

  /** The loop agrees with the segments from any starting state. */
  lemma {:induction false} RunMatchesReference(g: Grouper, its: seq<Item>)
    ensures Flushed(Run(g, its)) ==
            g.done + Pending(g.question, g.options + OptionTexts(its[..FirstQuestion(its)])) + Reference(its)
    decreases |its|
  {
    if its == [] {
      assert its[..0] == [];
      assert g.options + [] == g.options;
    } else {
      RunMatchesReference(Step(g, its[0]), its[1..]);
      if its[0].QuestionText? {
        QuestionStepAgrees(g, its);
      } else {
        OtherStepAgrees(g, its);
      }
    }
  }

  /** The loop and the final flush, on the items of a document. */
  function GroupItems(its: seq<Item>): (r: seq<QuestionRecord>)
    ensures r == Numbered(Reference(its))
  {
    RunMatchesReference(Start, its);
    Numbered(Flushed(Run(Start, its)))
  }

  /** `extract_questions_with_options` on the elements of the document. */
  function GroupQuestions(es: seq<Element>): (r: seq<QuestionRecord>)
    ensures r == Numbered(Reference(Items(es)))
    ensures forall k :: 0 <= k < |r| ==> WellFormed(r[k])
  {
    GroupedRecordsWellFormed(Items(es));
    GroupItems(Items(es))
  }

  /** What every record satisfies: non-empty question text and options, its
      number read from its text, and at most one record per question. */
  lemma GroupedRecordsWellFormed(its: seq<Item>)
    ensures |GroupItems(its)| <= CountQuestions(its)
    ensures forall k :: 0 <= k < |GroupItems(its)| ==> WellFormed(GroupItems(its)[k])
  {
    ReferenceWellFormed(its);
  }

  /** Options before the first question are dropped: with `current_question`
      still None they never reach a record. */
  lemma LeadingOptionsDiscarded(pre: seq<Item>, its: seq<Item>)
    requires forall j :: 0 <= j < |pre| ==> !pre[j].QuestionText?
    ensures GroupItems(pre + its) == GroupItems(its)
  {
    assert FirstQuestion(pre + its) >= |pre| by {
      assert forall j :: 0 <= j < |pre| ==> (pre + its)[j] == pre[j];
    }
    assert (pre + its)[|pre|..] == its;
    ReferenceSkipsPrefix(pre + its, |pre|);
  }

  /** A question with no option before the next question yields no record,
      and neither does one whose stripped text is empty. */
  lemma QuestionWithoutOptionsDropped(q: string, its: seq<Item>)
    requires q == [] || OptionTexts(its[..FirstQuestion(its)]) == []
    ensures GroupItems([QuestionText(q)] + its) == GroupItems(its[FirstQuestion(its)..])
  {
    ReferenceAtQuestion(q, its);
    ReferenceSkipsPrefix(its, FirstQuestion(its));
    assert Pending(Some(q), OptionTexts(its[..FirstQuestion(its)])) == [];
    assert Reference([QuestionText(q)] + its) == Reference(its[FirstQuestion(its)..]);
  }

  /** The texts of a run of options. */
  function Options(os: seq<string>): (its: seq<Item>)
    ensures |its| == |os|
    ensures forall k :: 0 <= k < |os| ==> its[k] == OptionText(os[k])
  {
    seq(|os|, k requires 0 <= k < |os| => OptionText(os[k]))
  }

  lemma {:induction false} OptionTextsOfOptions(os: seq<string>)
    ensures FirstQuestion(Options(os)) == |os|
    ensures OptionTexts(Options(os)) == os
    decreases |os|
  {
    if os != [] {
      assert Options(os)[1..] == Options(os[1..]);
      OptionTextsOfOptions(os[1..]);
    }
  }

  /** One question with non-empty text followed by its options makes one
      record holding exactly those option texts. */
  lemma SingleQuestion(q: string, os: seq<string>)
    requires q != [] && os != []
    ensures GroupItems([QuestionText(q)] + Options(os)) == [QuestionRecord(QuestionNumber(q), q, os)]
  {
    ReferenceAtQuestion(q, Options(os));
    OptionTextsOfOptions(os);
    assert Options(os)[..|os|] == Options(os);
    ReferenceSkipsPrefix(Options(os), |os|);
    assert Options(os)[|os|..] == [];
  }
}

=== FILE: issues.dfy ===
/** `detect_issues` (app.py:26-36): the numbering defects of a list of
    optional numbers, judged against the contiguous run 1..max. */
module Issues {
  import opened Maybe

  /** The `issues` dictionary: `missing`, `duplicates`, `sequence_errors`. */
  datatype IssueSet = IssueSet(missing: seq<nat>, duplicates: seq<nat>, sequenceErrors: seq<(nat, nat)>)

  /** No defect of any kind. */
  predicate Clear(r: IssueSet) {
    r.missing == [] && r.duplicates == [] && r.sequenceErrors == []
  }

  predicate StrictlyAscending(s: seq<nat>) {
    forall i, j :: 0 <= i < j < |s| ==> s[i] < s[j]
  }

  /** `[n for n in numbers if isinstance(n, int)]`: the present numbers, in order. */
  function Present(xs: seq<Option<nat>>): (v: seq<nat>)
    ensures |v| <= |xs|
    ensures forall n :: n in v <==> Some(n) in xs
  {
    if xs == [] then []
    else (if xs[0].Some? then [xs[0].value] else []) + Present(xs[1..])
  }

  /** Every number present: how a list of plain integers enters `detect_issues`. */
  function AllPresent(v: seq<nat>): (xs: seq<Option<nat>>)
    ensures |xs| == |v|
    ensures forall i :: 0 <= i < |v| ==> xs[i] == Some(v[i])
  {
    if v == [] then [] else [Some(v[0])] + AllPresent(v[1..])
  }

  lemma {:induction false} PresentAppend(a: seq<Option<nat>>, b: seq<Option<nat>>)
    ensures Present(a + b) == Present(a) + Present(b)
    decreases |a|
  {
    if a == [] {
      assert a + b == b;
    } else {
      assert (a + b)[1..] == a[1..] + b;
      PresentAppend(a[1..], b);
    }
  }

  lemma {:induction false} PresentAllPresent(v: seq<nat>)
    ensures Present(AllPresent(v)) == v
    decreases |v|
  {
    if v != [] {
      assert AllPresent(v)[1..] == AllPresent(v[1..]);
      PresentAllPresent(v[1..]);
    }
  }

  /** Python's `max(valid)`. */
  function Max(v: seq<nat>): (m: nat)
    requires v != []
    ensures m in v
    ensures forall x :: x in v ==> x <= m
    decreases |v|
  {
    if |v| == 1 then v[0]
    else
      var m := Max(v[1..]);
      assert forall x :: x in v ==> x == v[0] || x in v[1..];
      if v[0] < m then m else v[0]
  }

  /** The numbers 1..k that do not occur in `v`, ascending. */
  function MissingUpTo(v: seq<nat>, k: nat): (r: seq<nat>)
    ensures StrictlyAscending(r)
    ensures forall j :: j in r <==> 1 <= j <= k && j !in v
    decreases k
  {
    if k == 0 then []
    else
      var front := MissingUpTo(v, k - 1);
      assert forall i :: 0 <= i < |front| ==> front[i] in front;
      front + (if k in v then [] else [k])
  }

  /** `sorted(set(range(1, max(valid) + 1)) - set(valid))`, or `[]` when
      nothing is present: every positive number up to some present number
      that is not itself present. */
  function Missing(v: seq<nat>): (r: seq<nat>)
    ensures StrictlyAscending(r)
    ensures forall j :: j in r <==> 1 <= j && j !in v && exists x :: x in v && j <= x
  {
    if v == [] then [] else MissingUpTo(v, Max(v))
  }

  /** The numbers below k that occur more than once in `v`, ascending. */
  function DuplicatesBelow(v: seq<nat>, k: nat): (r: seq<nat>)
    ensures StrictlyAscending(r)
    ensures forall x :: x in r <==> x < k && multiset(v)[x] > 1
    decreases k
  {
    if k == 0 then []
    else
      var front := DuplicatesBelow(v, k - 1);
      assert forall i :: 0 <= i < |front| ==> front[i] in front;
      front + (if multiset(v)[k - 1] > 1 then [k - 1] else [])
  }

  /** `sorted({x for x in valid if valid.count(x) > 1})`. */
  function Duplicates(v: seq<nat>): (r: seq<nat>)
    ensures StrictlyAscending(r)
    ensures forall x :: x in r <==> multiset(v)[x] > 1
  {
    assert forall x :: multiset(v)[x] > 1 ==> x in v;
    if v == [] then [] else DuplicatesBelow(v, Max(v) + 1)
  }

  /** Lines 33-35 as a recursion: one pair per adjacent (v[i], v[i + 1]) that
      does not step by exactly one. */
  function SequenceErrors(v: seq<nat>): (r: seq<(nat, nat)>)
    ensures |v| <= 1 ==> r == []
    decreases |v|
  {
    if |v| <= 1 then []
    else (if v[1] != v[0] + 1 then [(v[0], v[1])] else []) + SequenceErrors(v[1..])
  }

  /** No pair is reported exactly when every adjacent pair steps by one. */
  lemma {:induction false} NoSequenceErrorsIff(v: seq<nat>)
    ensures SequenceErrors(v) == [] <==> forall i :: 0 <= i < |v| - 1 ==> v[i + 1] == v[i] + 1
    decreases |v|
  {
    if |v| > 1 {
      NoSequenceErrorsIff(v[1..]);
      assert forall i :: 1 <= i < |v| - 1 ==> v[i] == v[1..][i - 1] && v[i + 1] == v[1..][i];
    }
  }

  /** A pair is reported exactly when it is an adjacent pair of `v` that
      does not step by one. */
  lemma {:induction false} SequenceErrorsMembers(v: seq<nat>, p: (nat, nat))
    ensures p in SequenceErrors(v) <==>
            exists i :: 0 <= i < |v| - 1 && v[i + 1] != v[i] + 1 && p == (v[i], v[i + 1])
    decreases |v|
  {
    if |v| > 1 {
      var own := if v[1] != v[0] + 1 then [(v[0], v[1])] else [];
      assert SequenceErrors(v) == own + SequenceErrors(v[1..]);
      SequenceErrorsMembers(v[1..], p);
      if p in SequenceErrors(v[1..]) {
        var i :| 0 <= i < |v[1..]| - 1 && v[1..][i + 1] != v[1..][i] + 1 && p == (v[1..][i], v[1..][i + 1]);
        assert v[i + 2] != v[i + 1] + 1 && p == (v[i + 1], v[i + 2]);
      }
      if exists i :: 0 <= i < |v| - 1 && v[i + 1] != v[i] + 1 && p == (v[i], v[i + 1]) {
        var i :| 0 <= i < |v| - 1 && v[i + 1] != v[i] + 1 && p == (v[i], v[i + 1]);
        if i > 0 {
          assert v[1..][i - 1] == v[i] && v[1..][i] == v[i + 1];
        }
      }
    }
  }

  /** The pairs come in index order: the errors of a list split in two are
      those of the front part, then the pair across the cut if it is one,
      then those of the back part. */
  lemma {:induction false} SequenceErrorsSplit(a: seq<nat>, b: seq<nat>)
    requires a != [] && b != []
    ensures SequenceErrors(a + b) ==
            SequenceErrors(a)
            + (if b[0] != a[|a| - 1] + 1 then [(a[|a| - 1], b[0])] else [])
            + SequenceErrors(b)
    decreases |a|
  {
    var cross := if b[0] != a[|a| - 1] + 1 then [(a[|a| - 1], b[0])] else [];
    if |a| == 1 {
      assert a + b == [a[0]] + b;
      SequenceErrorsCons(a[0], b);
    } else {
      var own := if a[1] != a[0] + 1 then [(a[0], a[1])] else [];
      assert a + b == [a[0]] + (a[1..] + b);
      assert a == [a[0]] + a[1..];
      SequenceErrorsCons(a[0], a[1..] + b);
      SequenceErrorsCons(a[0], a[1..]);
      SequenceErrorsSplit(a[1..], b);
      assert a[1..][|a[1..]| - 1] == a[|a| - 1];
      assert own + (SequenceErrors(a[1..]) + cross + SequenceErrors(b)) ==
             (own + SequenceErrors(a[1..])) + cross + SequenceErrors(b);
    }
  }

  /** A number put in front adds its pair with the old first number, if that
      pair breaks the sequence. */
  lemma SequenceErrorsCons(x: nat, v: seq<nat>)
    requires v != []
    ensures SequenceErrors([x] + v) == (if v[0] != x + 1 then [(x, v[0])] else []) + SequenceErrors(v)
  {
    assert ([x] + v)[1..] == v;
  }

  /** The loop of lines 33-35 as written, appending in encounter order. */
  method ScanSequenceErrors(v: seq<nat>) returns (errors: seq<(nat, nat)>)
    ensures errors == SequenceErrors(v)
  {
    errors := [];
    var i := 0;
    while i + 1 < |v|
      invariant i <= |v|
      invariant errors + SequenceErrors(v[i..]) == SequenceErrors(v)
    {
      assert v[i..][1..] == v[i + 1..];
      if v[i + 1] != v[i] + 1 {
        errors := errors + [(v[i], v[i + 1])];
      }
      i := i + 1;
    }
  }

  /** `detect_issues(numbers)`. */
  function DetectIssues(xs: seq<Option<nat>>): (r: IssueSet)
    ensures Present(xs) == [] ==> Clear(r)
    ensures StrictlyAscending(r.missing) && StrictlyAscending(r.duplicates)
    ensures forall k :: k in r.missing <==> 1 <= k && k !in Present(xs) && exists x :: x in Present(xs) && k <= x
    ensures forall x :: x in r.duplicates <==> multiset(Present(xs))[x] > 1
    ensures r.sequenceErrors == SequenceErrors(Present(xs))
  {
    var v := Present(xs);
    IssueSet(Missing(v), Duplicates(v), SequenceErrors(v))
  }

  /** Absent entries are dropped before anything is judged: an inserted
      `None` changes nothing. */
  lemma NoneIsIgnored(a: seq<Option<nat>>, b: seq<Option<nat>>)
    ensures DetectIssues(a + [None] + b) == DetectIssues(a + b)
  {
    PresentAppend(a + [None], b);
    PresentAppend(a, [None]);
    PresentAppend(a, b);
    assert Present([None]) == [];
    assert Present(a + [None] + b) == Present(a + b);
  }

  /** `v` steps by one from its first element. */
  predicate IsRun(v: seq<nat>) {
    forall i :: 0 <= i < |v| ==> v[i] == v[0] + i
  }

  lemma {:induction false} ConsecutiveAt(v: seq<nat>, i: nat)
    requires forall j :: 0 <= j < |v| - 1 ==> v[j + 1] == v[j] + 1
    requires i < |v|
    ensures v[i] == v[0] + i
  {
    if i > 0 {
      ConsecutiveAt(v, i - 1);
    }
  }

  /** A run holds no value twice. */
  lemma {:induction false} RunIsDistinct(v: seq<nat>, x: nat)
    requires IsRun(v)
    ensures multiset(v)[x] <= 1
    decreases |v|
  {
    if v != [] {
      var rest := v[1..];
      assert v == [v[0]] + rest;
      assert multiset(v) == multiset{v[0]} + multiset(rest);
      assert v[0] !in rest by {
        assert forall i :: 0 <= i < |rest| ==> rest[i] == v[i + 1];
      }
      assert IsRun(rest) by {
        assert forall i :: 0 <= i < |rest| ==> rest[i] == v[i + 1];
      }
      RunIsDistinct(rest, x);
    }
  }

  /** A list without sequence errors is a run. */
  lemma SteppingIsRun(v: seq<nat>)
    requires SequenceErrors(v) == []
    ensures IsRun(v)
  {
    NoSequenceErrorsIff(v);
    forall i | 0 <= i < |v|
      ensures v[i] == v[0] + i
    {
      ConsecutiveAt(v, i);
    }
  }

  /** A run reports no sequence error. */
  lemma RunSteps(v: seq<nat>)
    requires IsRun(v)
    ensures SequenceErrors(v) == []
  {
    NoSequenceErrorsIff(v);
  }

  /** A run reaches every number between its first element and any of its elements. */
  lemma RunContains(v: seq<nat>, x: nat, k: nat)
    requires v != [] && IsRun(v)
    requires x in v && v[0] <= k <= x
    ensures k in v
  {
    var i :| 0 <= i < |v| && v[i] == x;
    assert v[k - v[0]] == k;
  }

  lemma {:induction false} MissingUpToNothing(v: seq<nat>, k: nat)
    requires forall j :: 1 <= j <= k ==> j in v
    ensures MissingUpTo(v, k) == []
  {
    if k > 0 {
      MissingUpToNothing(v, k - 1);
    }
  }

  /** A run starting at 0 or 1 leaves nothing between 1 and its maximum out. */
  lemma RunMissesNothing(v: seq<nat>)
    requires v != [] && v[0] <= 1 && IsRun(v)
    ensures Missing(v) == []
  {
    forall j | 1 <= j <= Max(v)
      ensures j in v
    {
      RunContains(v, Max(v), j);
    }
    MissingUpToNothing(v, Max(v));
  }

  /** A run starting above 1 misses 1. */
  lemma RunFromAboveOneMissesOne(v: seq<nat>)
    requires v != [] && IsRun(v) && v[0] > 1
    ensures 1 in Missing(v)
  {
    assert 1 !in v;
    assert v[0] in v;
  }

  lemma {:induction false} DuplicatesBelowNothing(v: seq<nat>, k: nat)
    requires forall x :: multiset(v)[x] <= 1
    ensures DuplicatesBelow(v, k) == []
  {
    if k > 0 {
      DuplicatesBelowNothing(v, k - 1);
    }
  }

  /** A run holds no duplicate. */
  lemma RunHasNoDuplicates(v: seq<nat>)
    requires IsRun(v)
    ensures Duplicates(v) == []
  {
    forall x
      ensures multiset(v)[x] <= 1
    {
      RunIsDistinct(v, x);
    }
    if v != [] {
      DuplicatesBelowNothing(v, Max(v) + 1);
    }
  }

  /** The list is defect-free exactly when its present numbers are none at
      all, or count up by one from 1, or from 0: a run that starts at 0 is
      not flagged, since only 1..max is expected and 0 is never missing. */
  lemma NoIssuesIff(xs: seq<Option<nat>>)
    ensures Clear(DetectIssues(xs)) <==> (Present(xs) == [] || (Present(xs)[0] <= 1 && IsRun(Present(xs))))
  {
    var v := Present(xs);
    if v != [] {
      if Clear(DetectIssues(xs)) {
        SteppingIsRun(v);
        if v[0] > 1 {
          RunFromAboveOneMissesOne(v);
        }
      }
      if v[0] <= 1 && IsRun(v) {
        RunMissesNothing(v);
        RunHasNoDuplicates(v);
        RunSteps(v);
      }
    }
  }

  /** 1, 2, ..., n. */
  function Counting(n: nat): (v: seq<nat>)
    ensures |v| == n
    ensures forall i :: 0 <= i < n ==> v[i] == i + 1
  {
    seq(n, i => i + 1)
  }

  /** The numbering 1..n, with absent entries anywhere among it, has no
      defect. `AllPresent(Counting(n))` is the case without absent entries
      (`PresentAllPresent`). */
  lemma CountingIsClear(xs: seq<Option<nat>>, n: nat)
    requires Present(xs) == Counting(n)
    ensures Clear(DetectIssues(xs))
  {
    var v := Counting(n);
    assert IsRun(v);
    assert v != [] ==> v[0] == 1;
    NoIssuesIff(xs);
  }

  /** A strictly ascending list is determined by its elements: this is
      what makes "sorted and de-duplicated" a complete description. */
  lemma {:induction false} AscendingUnique(a: seq<nat>, b: seq<nat>)
    requires StrictlyAscending(a) && StrictlyAscending(b)
    requires forall x :: x in a <==> x in b
    ensures a == b
    decreases |a|
  {
    assert a != [] ==> a[0] in b;
    assert b != [] ==> b[0] in a;
    if a != [] && b != [] {
      assert a[0] == b[0];
      forall x
        ensures x in a[1..] <==> x in b[1..]
      {
        if x in a[1..] {
          assert x in a && x != a[0];
        }
        if x in b[1..] {
          assert x in b && x != b[0];
        }
      }
      AscendingUnique(a[1..], b[1..]);
      assert a == [a[0]] + a[1..] && b == [b[0]] + b[1..];
    }
  }

  lemma MaxExample(v: seq<nat>)
    requires v == [1, 3, 3, 5]
    ensures Max(v) == 5
  {
    assert v[3] in v;
    var i :| 0 <= i < |v| && v[i] == Max(v);
    assert v[i] <= 5;
  }

  lemma MissingExampleMembers(v: seq<nat>, x: nat)
    requires v == [1, 3, 3, 5]
    ensures x in Missing(v) <==> x == 2 || x == 4
  {
    assert x in v <==> x == 1 || x == 3 || x == 5;
    assert 5 in v;
    if x in Missing(v) {
      var y :| y in v && x <= y;
      assert y <= 5;
    }
  }

  lemma MissingExample(v: seq<nat>)
    requires v == [1, 3, 3, 5]
    ensures Missing(v) == [2, 4]
  {
    forall x
      ensures x in Missing(v) <==> x in [2, 4]
    {
      MissingExampleMembers(v, x);
    }
    AscendingUnique(Missing(v), [2, 4]);
  }

  lemma DuplicatesExample(v: seq<nat>)
    requires v == [1, 3, 3, 5]
    ensures Duplicates(v) == [3]
  {
    assert multiset(v) == multiset{1, 3, 3, 5};
    AscendingUnique(Duplicates(v), [3]);
  }

  lemma SequenceErrorsExample(v: seq<nat>)
    requires v == [1, 3, 3, 5]
    ensures SequenceErrors(v) == [(1, 3), (3, 3), (3, 5)]
  {
    var a, b, c := v[1..], v[2..], v[3..];
    assert a == [3, 3, 5] && a[1..] == b && b == [3, 5] && b[1..] == c && c == [5];
    assert SequenceErrors(c) == [];
    assert SequenceErrors(b) == [(3, 5)];
    assert SequenceErrors(a) == [(3, 3), (3, 5)];
  }

  /** Example: [1, 3, 3, 5] misses 2 and 4, repeats 3,
      and breaks the sequence three times. */
  lemma DetectIssuesExample(xs: seq<Option<nat>>)
    requires xs == [Some(1), Some(3), Some(3), Some(5)]
    ensures DetectIssues(xs) == IssueSet([2, 4], [3], [(1, 3), (3, 3), (3, 5)])
  {
    var v: seq<nat> := [1, 3, 3, 5];
    assert xs == AllPresent(v);
    PresentAllPresent(v);
    MissingExample(v);
    DuplicatesExample(v);
    SequenceErrorsExample(v);
  }
}

=== FILE: maybe.dfy ===
/** An optional value: Python's `None`, or some value. */
module Maybe {

  datatype Option<T> = None | Some(value: T)
}

=== FILE: numbering.dfy ===
/** `extract_numbered_elements` (app.py:6-14): for every element with a given
    local name, its stripped text and the number that text starts with. */
module Numbering {
  import opened Maybe
  import opened Strings
  import opened Document

  /** The class `[\.\s\t\u200B]` that must follow the leading digits. */
  predicate IsSeparator(c: char) {
    c == '.' || IsSpace(c) || c == '\U{200B}'
  }

  /** `re.match(r"(\d+)[\.\s\t\u200B]+", text)` and `int()` of its group.
      The greedy `\d+` takes the whole leading digit run, and backtracking
      cannot help (a shorter run is followed by a digit), so the match
      succeeds exactly when a separator follows that run. */
  function LeadingNumber(t: string): Option<nat> {
    var d := DigitRun(t);
    if 0 < d < |t| && IsSeparator(t[d]) then Some(Value(t[..d])) else None
  }

  /** A non-empty digit run followed by a separator is read, leading zeros and all. */
  lemma LeadingNumberReads(ds: string, sep: char, rest: string)
    requires ds != [] && AllDigits(ds)
    requires IsSeparator(sep)
    ensures LeadingNumber(ds + [sep] + rest) == Some(Value(ds))
  {
    var t := ds + [sep] + rest;
    assert t == ds + ([sep] + rest);
    DigitRunStopsAt(ds, [sep] + rest);
    assert t[..|ds|] == ds;
  }

  /** In particular the number `str(n)` followed by a separator reads back as `n`. */
  lemma LeadingNumberOfDecimal(n: nat, sep: char, rest: string)
    requires IsSeparator(sep)
    ensures LeadingNumber(Decimal(n) + [sep] + rest) == Some(n)
  {
    LeadingNumberReads(Decimal(n), sep, rest);
  }

  /** Digits followed by nothing, or by anything that is neither a digit nor
      a separator, give no number: "12" and "12abc" are not numbered. */
  lemma LeadingNumberNeedsSeparator(ds: string, rest: string)
    requires AllDigits(ds)
    requires rest == [] || (!IsDigit(rest[0]) && !IsSeparator(rest[0]))
    ensures LeadingNumber(ds + rest) == None
  {
    DigitRunStopsAt(ds, rest);
    if 0 < |ds| < |ds + rest| {
      assert (ds + rest)[|ds|] == rest[0];
    }
  }

  /** Conversely, a number read from `t` is spelled by a digit prefix of `t`
      that a separator follows. */
  lemma LeadingNumberSound(t: string)
    requires LeadingNumber(t).Some?
    ensures exists d :: 0 < d < |t| && AllDigits(t[..d]) && IsSeparator(t[d]) && Value(t[..d]) == LeadingNumber(t).value
  {
    var d := DigitRun(t);
    assert 0 < d < |t| && AllDigits(t[..d]) && IsSeparator(t[d]) && Value(t[..d]) == LeadingNumber(t).value;
  }

  /** The elements of `doc` with local name `name`, in document order. */
  function Named(doc: seq<Element>, name: string): (r: seq<Element>)
    ensures |r| <= |doc|
    ensures forall e :: e in r <==> e in doc && HasLocalName(e, name)
  {
    if doc == [] then []
    else (if HasLocalName(doc[0], name) then [doc[0]] else []) + Named(doc[1..], name)
  }

  /** Nothing is dropped or repeated: each element with the local name
      occurs as often in the selection as in the document. */
  lemma {:induction false} NamedCounts(doc: seq<Element>, name: string)
    ensures forall e :: multiset(Named(doc, name))[e] == if HasLocalName(e, name) then multiset(doc)[e] else 0
    decreases |doc|
  {
    if doc != [] {
      NamedCounts(doc[1..], name);
      assert doc == [doc[0]] + doc[1..];
      assert multiset(doc) == multiset([doc[0]]) + multiset(doc[1..]);
    }
  }

  /** Filtering a document split in two filters each part. */
  lemma {:induction false} NamedAppend(d1: seq<Element>, d2: seq<Element>, name: string)
    ensures Named(d1 + d2, name) == Named(d1, name) + Named(d2, name)
    decreases |d1|
  {
    if d1 == [] {
      assert d1 + d2 == d2;
    } else {
      assert (d1 + d2)[1..] == d1[1..] + d2;
      NamedAppend(d1[1..], d2, name);
    }
  }

  /** `(elem.text or "").strip()` of each element, in order. */
  function StrippedTexts(es: seq<Element>): (r: seq<string>)
    ensures |r| == |es|
    ensures forall k :: 0 <= k < |es| ==> r[k] == Strip(es[k].text)
  {
    if es == [] then [] else [Strip(es[0].text)] + StrippedTexts(es[1..])
  }

  lemma {:induction false} StrippedTextsAppend(e1: seq<Element>, e2: seq<Element>)
    ensures StrippedTexts(e1 + e2) == StrippedTexts(e1) + StrippedTexts(e2)
    decreases |e1|
  {
    if e1 == [] {
      assert e1 + e2 == e2;
    } else {
      assert (e1 + e2)[1..] == e1[1..] + e2;
      StrippedTextsAppend(e1[1..], e2);
    }
  }

  /** The leading number of each text, in order. */
  function LeadingNumbers(texts: seq<string>): (r: seq<Option<nat>>)
    ensures |r| == |texts|
    ensures forall k :: 0 <= k < |texts| ==> r[k] == LeadingNumber(texts[k])
  {
    if texts == [] then [] else [LeadingNumber(texts[0])] + LeadingNumbers(texts[1..])
  }

  /** `extract_numbered_elements(root, tag_name)`: the `texts` and `numbers`
      lists, one entry each per element with that local name, in document
      order. The single loop of the source is written here as a filter
      followed by a map, which visits the same elements in the same order. */
  function ExtractNumbered(doc: seq<Element>, name: string): (r: (seq<string>, seq<Option<nat>>))
    ensures |r.0| == |r.1| == |Named(doc, name)|
    ensures forall k :: 0 <= k < |r.0| ==>
              r.0[k] == Strip(Named(doc, name)[k].text) && r.1[k] == LeadingNumber(r.0[k])
  {
    var texts := StrippedTexts(Named(doc, name));
    (texts, LeadingNumbers(texts))
  }
}

=== FILE: options.dfy ===
/** `validate_options` (app.py:55-77): the option blocks of each question are
    joined into one line, cut into `(x) content` spans, and checked for
    invalid labels, missing options, empty options and repeated content. */
module OptionCheck {
  import opened Maybe
  import opened Strings
  import opened Grouping

  // ---------------------------------------------------------------------
  // Line 58: the flattened option text.

  /** `.replace('\n', ' ').replace('\t', ' ')` on one character. */
  function Blank(c: char): char {
    if c == '\n' || c == '\t' then ' ' else c
  }

  /** `" ".join(option_blocks)` with newlines and tabs turned into spaces. */
  function Flatten(blocks: seq<string>): (full: string)
    ensures |full| == |Join(blocks, " ")|
    ensures forall k :: 0 <= k < |full| ==> full[k] != '\n' && full[k] != '\t'
    ensures forall k :: 0 <= k < |full| ==>
              var c := Join(blocks, " ")[k];
              full[k] == if c == '\n' || c == '\t' then ' ' else c
  {
    var joined := Join(blocks, " ");
    seq(|joined|, k requires 0 <= k < |joined| => Blank(joined[k]))
  }

  /** A single block free of newlines and tabs is the flattened text itself. */
  lemma FlattenSingle(b: string)
    requires forall k :: 0 <= k < |b| ==> b[k] != '\n' && b[k] != '\t'
    ensures Flatten([b]) == b
  {
  }

  // ---------------------------------------------------------------------
  // The two regular expressions on the flattened text. The text holds no
  // '\n', so `.` matches every character and `$` only the end.

  predicate IsLower(c: char) {
    'a' <= c <= 'z'
  }

  /** An option marker `\(([a-z])\)` starts at `i`. */
  predicate MarkerAt(s: string, i: nat) {
    i + 3 <= |s| && s[i] == '(' && IsLower(s[i + 1]) && s[i + 2] == ')'
  }

  /** Where a greedy `\s*` starting at `i` stops. */
  function SkipSpace(s: string, i: nat): (j: nat)
    requires i <= |s|
    ensures i <= j <= |s|
    ensures forall k :: i <= k < j ==> IsSpace(s[k])
    ensures j == |s| || !IsSpace(s[j])
    decreases |s| - i
  {
    if i < |s| && IsSpace(s[i]) then SkipSpace(s, i + 1) else i
  }

  /** The lookahead `(?=\([a-z]\)|$)` holds at `x`. */
  predicate Boundary(s: string, x: nat) {
    x == |s| || MarkerAt(s, x)
  }

  /** Where the lazy `(.*?)` that starts at `q` stops: the first position from
      which the greedy `\s*` reaches a boundary. Backtracking the `\s*` cannot
      help, since every position it gives back holds whitespace, which is
      neither the end nor the '(' of a marker. */
  function ContentEnd(s: string, q: nat): (e: nat)
    requires q <= |s|
    ensures q <= e <= |s|
    ensures Boundary(s, SkipSpace(s, e))
    ensures forall k :: q <= k < e ==> !Boundary(s, SkipSpace(s, k))
    decreases |s| - q
  {
    if Boundary(s, SkipSpace(s, q)) then q else ContentEnd(s, q + 1)
  }

  /** One match of `\(([a-z])\)\s*(.*?)\s*(?=\([a-z]\)|$)`: its label, its
      content group and where the match ends. */
  datatype Span = Span(letter: char, content: string, end: nat)

  /** The match at a marker, described by what it captures: the content is
      the text between the marker and the next marker or the end, with the
      whitespace at either end removed. */
  function SpanAt(s: string, i: nat): (sp: Span)
    requires MarkerAt(s, i)
    ensures sp.letter == s[i + 1]
    ensures i + 3 <= sp.end <= |s| && Boundary(s, sp.end)
    ensures forall k :: i < k < sp.end ==> !MarkerAt(s, k)
    ensures sp.content == Strip(s[i + 3..sp.end])
  {
    var p := SkipSpace(s, i + 3);
    var q := ContentEnd(s, p);
    var e := SkipSpace(s, q);
    NoMarkerInSpan(s, i, p, q, e);
    ContentIsStripped(s, i + 3, p, q, e);
    Span(s[i + 1], s[p..q], e)
  }

  /** Every character of `s[a..b]` is whitespace. */
  lemma SpaceSlice(s: string, a: nat, b: nat)
    requires a <= b <= |s|
    requires forall k :: a <= k < b ==> IsSpace(s[k])
    ensures AllSpace(s[a..b])
  {
    forall k | 0 <= k < b - a
      ensures IsSpace(s[a..b][k])
    {
      assert s[a..b][k] == s[a + k];
    }
  }

  /** The content group is the stripped text between the marker and the
      end of the match. */
  lemma ContentIsStripped(s: string, a: nat, p: nat, q: nat, e: nat)
    requires a <= |s| && p == SkipSpace(s, a) && q == ContentEnd(s, p) && e == SkipSpace(s, q)
    ensures s[p..q] == Strip(s[a..e])
  {
    ContentUnpadded(s, p, q);
    SpaceSlice(s, a, p);
    SpaceSlice(s, q, e);
    StripSlice(s, a, p, q, e);
  }

  /** The content starts after a whitespace run and ends where the lazy
      group stops, so neither of its ends is whitespace. */
  lemma ContentUnpadded(s: string, p: nat, q: nat)
    requires p <= |s| && p == SkipSpace(s, p)
    requires q == ContentEnd(s, p)
    ensures s[p..q] == [] || (!IsSpace(s[p..q][0]) && !IsSpace(s[p..q][q - p - 1]))
  {
    if p < q {
      assert s[p..q][0] == s[p] && s[p..q][q - p - 1] == s[q - 1];
      SkipSpaceAt(s, q - 1);
    }
  }

  /** A whitespace character does not change where the run of whitespace
      ends, and any other character ends it where it stands. */
  lemma SkipSpaceAt(s: string, i: nat)
    requires i < |s|
    ensures IsSpace(s[i]) ==> SkipSpace(s, i) == SkipSpace(s, i + 1)
    ensures !IsSpace(s[i]) ==> SkipSpace(s, i) == i
  {
  }

  /** Between a marker and the end of its match there is no other marker. */
  lemma NoMarkerInSpan(s: string, i: nat, p: nat, q: nat, e: nat)
    requires MarkerAt(s, i)
    requires p == SkipSpace(s, i + 3) && q == ContentEnd(s, p) && e == SkipSpace(s, q)
    ensures forall k :: i < k < e ==> !MarkerAt(s, k)
  {
    forall k | i < k < e
      ensures !MarkerAt(s, k)
    {
      SkipSpaceAt(s, k);
      assert k < i + 3 ==> s[k] != '(';
      assert (i + 3 <= k < p || q <= k) ==> IsSpace(s[k]);
    }
  }

  /** `pattern.findall(full)` from position `i`: a match is tried at each
      position, and after a match the search resumes where it ended. */
  function Spans(s: string, i: nat): seq<Span>
    requires i <= |s|
    decreases |s| - i
  {
    if i == |s| then []
    else if MarkerAt(s, i) then [SpanAt(s, i)] + Spans(s, SpanAt(s, i).end)
    else Spans(s, i + 1)
  }

  /** `re.findall(r"\(([a-z])\)", full)` from position `i`. */
  function MarkerLabels(s: string, i: nat): seq<char>
    requires i <= |s|
    decreases |s| - i
  {
    if i == |s| then []
    else if MarkerAt(s, i) then [s[i + 1]] + MarkerLabels(s, i + 3)
    else MarkerLabels(s, i + 1)
  }

  /** The label groups of a list of spans, in order. */
  function Labels(spans: seq<Span>): (ls: seq<char>)
    ensures |ls| == |spans|
    decreases |spans|
  {
    if spans == [] then [] else [spans[0].letter] + Labels(spans[1..])
  }

  /** Neither scan finds anything in a stretch without markers. */
  lemma {:induction false} SkipNoMarkers(s: string, a: nat, b: nat)
    requires a <= b <= |s|
    requires forall k :: a <= k < b ==> !MarkerAt(s, k)
    ensures Spans(s, a) == Spans(s, b)
    ensures MarkerLabels(s, a) == MarkerLabels(s, b)
    decreases b - a
  {
    if a < b {
      SkipNoMarkers(s, a + 1, b);
    }
  }

  /** At a marker both scans take its label, and both go on from the end
      of its span, which no other marker precedes. */
  lemma MarkerStepAgrees(s: string, i: nat, sp: Span)
    requires MarkerAt(s, i) && sp == SpanAt(s, i)
    requires Labels(Spans(s, sp.end)) == MarkerLabels(s, sp.end)
    ensures Labels(Spans(s, i)) == MarkerLabels(s, i)
  {
    var rest := Spans(s, sp.end);
    assert Spans(s, i) == [sp] + rest;
    LabelsCons(sp, rest);
    SkipNoMarkers(s, i + 3, sp.end);
    assert MarkerLabels(s, i) == [s[i + 1]] + MarkerLabels(s, i + 3);
  }

  lemma LabelsCons(sp: Span, rest: seq<Span>)
    ensures Labels([sp] + rest) == [sp.letter] + Labels(rest)
  {
    assert ([sp] + rest)[1..] == rest;
  }

  /** The labels `all_labels` finds are exactly the labels of the spans: a
      span runs from one marker to the next, and markers never overlap. */
  lemma {:induction false} LabelsAgree(s: string, i: nat)
    requires i <= |s|
    ensures Labels(Spans(s, i)) == MarkerLabels(s, i)
    decreases |s| - i
  {
    if i < |s| {
      if MarkerAt(s, i) {
        var sp := SpanAt(s, i);
        LabelsAgree(s, sp.end);
        MarkerStepAgrees(s, i, sp);
      } else {
        LabelsAgree(s, i + 1);
      }
    }
  }

  // ---------------------------------------------------------------------
  // Lines 61-63: the `extracted` dict, in insertion order.

  /** A dict from labels to contents as a list of entries in insertion order. */
  type Entries = seq<(char, string)>

  /** Position of key `k` in `m`, or |m| when it is absent. */
  function IndexOf(m: Entries, k: char): (i: nat)
    ensures i <= |m|
    ensures forall j :: 0 <= j < i ==> m[j].0 != k
    ensures i < |m| ==> m[i].0 == k
    decreases |m|
  {
    if m == [] then 0
    else if m[0].0 == k then 0
    else
      var i := 1 + IndexOf(m[1..], k);
      assert forall j :: 1 <= j < i ==> m[j] == m[1..][j - 1];
      i
  }

  /** The position that holds the first `k` is `IndexOf`. */
  lemma IndexOfIs(m: Entries, k: char, i: nat)
    requires i <= |m|
    requires forall j :: 0 <= j < i ==> m[j].0 != k
    requires i < |m| ==> m[i].0 == k
    ensures IndexOf(m, k) == i
  {
  }

  /** `k in m`. */
  predicate HasKey(m: Entries, k: char) {
    IndexOf(m, k) < |m|
  }

  /** `m.get(k)`. */
  function Lookup(m: Entries, k: char): Option<string> {
    if HasKey(m, k) then Some(m[IndexOf(m, k)].1) else None
  }

  predicate DistinctKeys(m: Entries) {
    forall a, b :: 0 <= a < b < |m| ==> m[a].0 != m[b].0
  }

  /** `m[k] = v`: a new key goes last, an existing key keeps its place and
      takes the new value. */
  function Put(m: Entries, k: char, v: string): (r: Entries)
    requires DistinctKeys(m)
    ensures DistinctKeys(r)
    ensures |r| == if HasKey(m, k) then |m| else |m| + 1
    ensures forall i :: 0 <= i < |m| ==> r[i].0 == m[i].0
    ensures Lookup(r, k) == Some(v)
  {
    var i := IndexOf(m, k);
    if i < |m| then
      var r := m[i := (k, v)];
      IndexOfIs(r, k, i);
      r
    else
      var r := m + [(k, v)];
      IndexOfIs(r, k, |m|);
      r
  }

  /** Storing under `k` leaves every other key's value alone. */
  lemma PutOther(m: Entries, k: char, v: string, k': char)
    requires DistinctKeys(m) && k' != k
    ensures Lookup(Put(m, k, v), k') == Lookup(m, k')
  {
    var r := Put(m, k, v);
    var i := IndexOf(m, k');
    assert forall j :: 0 <= j < |m| ==> r[j] == m[j] || (m[j].0 == k && r[j].0 == k);
    assert i < |m| ==> r[i] == m[i];
    assert i == |m| ==> forall j :: |m| <= j < |r| ==> r[j].0 == k;
    IndexOfIs(r, k', if i < |m| then i else |r|);
  }

  /** The labels the dict keeps: `label in ['a','b','c','d']`. */
  predicate IsOptionLabel(c: char) {
    'a' <= c <= 'd'
  }

  /** Line 63 over the spans in order: each span with a kept label stores
      its stripped content under that label. */
  function Captured(spans: seq<Span>): (m: Entries)
    ensures DistinctKeys(m)
    decreases |spans|
  {
    if spans == [] then []
    else
      var m := Captured(spans[..|spans| - 1]);
      var x := spans[|spans| - 1];
      if IsOptionLabel(x.letter) then Put(m, x.letter, Strip(x.content)) else m
  }

  /** A kept label holds the content of its LAST span: a repeated label
      overwrites the earlier content. */
  lemma {:induction false} CapturedLast(spans: seq<Span>, j: nat)
    requires j < |spans| && IsOptionLabel(spans[j].letter)
    requires forall j' :: j < j' < |spans| ==> spans[j'].letter != spans[j].letter
    ensures Lookup(Captured(spans), spans[j].letter) == Some(Strip(spans[j].content))
    decreases |spans|
  {
    if j < |spans| - 1 {
      var front := spans[..|spans| - 1];
      var x := spans[|spans| - 1];
      assert front[j] == spans[j];
      CapturedLast(front, j);
      if IsOptionLabel(x.letter) {
        PutOther(Captured(front), x.letter, Strip(x.content), spans[j].letter);
      }
    }
  }

  /** A label that is not kept, or that no span carries, is not in the dict. */
  lemma {:induction false} CapturedAbsent(spans: seq<Span>, k: char)
    requires !IsOptionLabel(k) || forall j :: 0 <= j < |spans| ==> spans[j].letter != k
    ensures Lookup(Captured(spans), k) == None
    decreases |spans|
  {
    if spans != [] {
      var front := spans[..|spans| - 1];
      var x := spans[|spans| - 1];
      assert forall j :: 0 <= j < |front| ==> front[j] == spans[j];
      CapturedAbsent(front, k);
      if IsOptionLabel(x.letter) {
        PutOther(Captured(front), x.letter, Strip(x.content), k);
      }
    }
  }

  /** Position of the first span labelled `c`, or |spans| when none is. */
  function FirstSpan(spans: seq<Span>, c: char): (i: nat)
    ensures i <= |spans|
    ensures forall j :: 0 <= j < i ==> spans[j].letter != c
    ensures i < |spans| ==> spans[i].letter == c
    decreases |spans|
  {
    if spans == [] then 0
    else if spans[0].letter == c then 0
    else
      var i := 1 + FirstSpan(spans[1..], c);
      assert forall j :: 1 <= j < i ==> spans[j] == spans[1..][j - 1];
      i
  }

  lemma FirstSpanIs(spans: seq<Span>, c: char, i: nat)
    requires i <= |spans|
    requires forall j :: 0 <= j < i ==> spans[j].letter != c
    requires i < |spans| ==> spans[i].letter == c
    ensures FirstSpan(spans, c) == i
  {
  }

  /** A span added at the end is the first one labelled `c` only when no
      earlier span is. */
  lemma FirstSpanExtend(front: seq<Span>, x: Span, c: char)
    ensures FirstSpan(front + [x], c) ==
              if FirstSpan(front, c) < |front| then FirstSpan(front, c) else if x.letter == c then |front| else |front| + 1
  {
    var spans := front + [x];
    assert forall j :: 0 <= j < |front| ==> spans[j] == front[j];
    var i := FirstSpan(front, c);
    if i < |front| {
      FirstSpanIs(spans, c, i);
    } else if x.letter == c {
      FirstSpanIs(spans, c, |front|);
    } else {
      FirstSpanIs(spans, c, |spans|);
    }
  }

  /** `r` has the keys of `m` at the same places, and perhaps more after them. */
  predicate KeysKept(m: Entries, r: Entries) {
    |m| <= |r| && forall i :: 0 <= i < |m| ==> r[i].0 == m[i].0
  }

  lemma KeyStays(m: Entries, r: Entries, c: char)
    requires KeysKept(m, r) && HasKey(m, c)
    ensures HasKey(r, c)
  {
    IndexOfIs(r, c, IndexOf(m, c));
  }

  /** One more span keeps the keys in place and adds at most its own label,
      last, when that label is new. */
  lemma CapturedStep(spans: seq<Span>)
    requires spans != []
    ensures var m := Captured(spans[..|spans| - 1]);
            var r := Captured(spans);
            var x := spans[|spans| - 1];
            KeysKept(m, r) && (|r| > |m| ==> IsOptionLabel(x.letter) && !HasKey(m, x.letter) && |r| == |m| + 1 && r[|m|].0 == x.letter)
            && (IsOptionLabel(x.letter) ==> HasKey(r, x.letter))
  {
  }

  /** Every label a to d that some span carries is a key. */
  lemma {:induction false} CapturedHasCarried(spans: seq<Span>, c: char)
    requires IsOptionLabel(c) && FirstSpan(spans, c) < |spans|
    ensures HasKey(Captured(spans), c)
    decreases |spans|
  {
    var front := spans[..|spans| - 1];
    var x := spans[|spans| - 1];
    assert spans == front + [x];
    FirstSpanExtend(front, x, c);
    CapturedStep(spans);
    if FirstSpan(front, c) < |front| {
      CapturedHasCarried(front, c);
      KeyStays(Captured(front), Captured(spans), c);
    }
  }

  /** Every key is a label that some span carries. */
  lemma {:induction false} CapturedKeysCarried(spans: seq<Span>, a: nat)
    requires a < |Captured(spans)|
    ensures FirstSpan(spans, Captured(spans)[a].0) < |spans|
    decreases |spans|
  {
    var front := spans[..|spans| - 1];
    var x := spans[|spans| - 1];
    assert spans == front + [x];
    CapturedStep(spans);
    var c := Captured(spans)[a].0;
    FirstSpanExtend(front, x, c);
    if a < |Captured(front)| {
      CapturedKeysCarried(front, a);
    }
  }

  /** The dict's keys stand in the order of each label's FIRST span: a
      later span with the same label changes the value (`CapturedLast`) but
      not the place of the key. */
  lemma {:induction false} CapturedKeyOrder(spans: seq<Span>, a: nat, b: nat)
    requires a < b < |Captured(spans)|
    ensures FirstSpan(spans, Captured(spans)[a].0) < FirstSpan(spans, Captured(spans)[b].0)
    decreases |spans|
  {
    var front := spans[..|spans| - 1];
    var x := spans[|spans| - 1];
    var m := Captured(front);
    var r := Captured(spans);
    assert spans == front + [x];
    CapturedStep(spans);
    CapturedKeysCarried(front, a);
    FirstSpanExtend(front, x, r[a].0);
    FirstSpanExtend(front, x, r[b].0);
    if b < |m| {
      CapturedKeysCarried(front, b);
      CapturedKeyOrder(front, a, b);
    } else {
      CapturedHasCarriedNot(front, x.letter);
    }
  }

  /** A label a to d that is not a key is carried by no span. */
  lemma CapturedHasCarriedNot(spans: seq<Span>, c: char)
    requires IsOptionLabel(c) && !HasKey(Captured(spans), c)
    ensures FirstSpan(spans, c) == |spans|
  {
    if FirstSpan(spans, c) < |spans| {
      CapturedHasCarried(spans, c);
    }
  }

  // ---------------------------------------------------------------------
  // Lines 64-74: the issues of one question.

  /** One entry of `issues`, before it is rendered as text. */
  datatype OptionIssue =
    | InvalidLabels(labels: seq<char>)
    | MissingOptions(labels: seq<char>)
    | EmptyOption(letter: char)
    | DuplicateContent(first: char, second: char, content: string)

  predicate Ascending(cs: seq<char>) {
    forall a, b :: 0 <= a < b < |cs| ==> cs[a] < cs[b]
  }

  /** `c` added to an ascending list without a duplicate. */
  function Insert(sorted: seq<char>, c: char): (r: seq<char>)
    requires Ascending(sorted)
    ensures Ascending(r)
    ensures forall x :: x in r <==> x in sorted || x == c
    decreases |sorted|
  {
    if sorted == [] then [c]
    else if c == sorted[0] then sorted
    else if c < sorted[0] then
      assert forall i :: 0 <= i < |sorted| ==> sorted[0] <= sorted[i];
      [c] + sorted
    else
      var tail := Insert(sorted[1..], c);
      assert forall x :: x in sorted <==> x == sorted[0] || x in sorted[1..];
      AscendingTail(sorted);
      AscendingCons(sorted[0], tail);
      [sorted[0]] + tail
  }

  /** Everything after the head of an ascending list exceeds the head. */
  lemma AscendingTail(cs: seq<char>)
    requires cs != [] && Ascending(cs)
    ensures Ascending(cs[1..])
    ensures forall x :: x in cs[1..] ==> cs[0] < x
  {
    assert forall i :: 0 <= i < |cs| - 1 ==> cs[1..][i] == cs[i + 1];
  }

  /** A head below every element of an ascending list keeps it ascending. */
  lemma AscendingCons(x: char, t: seq<char>)
    requires Ascending(t) && forall y :: y in t ==> x < y
    ensures Ascending([x] + t)
  {
    assert forall i :: 0 <= i < |t| ==> t[i] in t;
    assert forall i :: 0 < i <= |t| ==> ([x] + t)[i] == t[i - 1];
  }

  /** `sorted(set(cs))`. */
  function SortedSet(cs: seq<char>): (r: seq<char>)
    ensures Ascending(r)
    ensures forall x :: x in r <==> x in cs
    decreases |cs|
  {
    if cs == [] then []
    else
      var front := cs[..|cs| - 1];
      assert forall x :: x in cs <==> x in front || x == cs[|cs| - 1];
      Insert(SortedSet(front), cs[|cs| - 1])
  }

  /** Line 65: the labels that are not a to d, in order of appearance. */
  function Invalid(labels: seq<char>): (r: seq<char>)
    ensures forall x :: x in r <==> x in labels && !IsOptionLabel(x)
    decreases |labels|
  {
    if labels == [] then []
    else
      assert forall x :: x in labels <==> x == labels[0] || x in labels[1..];
      (if IsOptionLabel(labels[0]) then [] else [labels[0]]) + Invalid(labels[1..])
  }

  /** The letters of `cs`, in order, that are not keys of `m`. */
  function Lacking(m: Entries, cs: seq<char>): seq<char>
    decreases |cs|
  {
    if cs == [] then [] else (if HasKey(m, cs[0]) then [] else [cs[0]]) + Lacking(m, cs[1..])
  }

  lemma {:induction false} LackingMembers(m: Entries, cs: seq<char>, x: char)
    ensures x in Lacking(m, cs) <==> x in cs && !HasKey(m, x)
    decreases |cs|
  {
    if cs != [] {
      LackingMembers(m, cs[1..], x);
      assert x in cs <==> x == cs[0] || x in cs[1..];
    }
  }

  lemma {:induction false} LackingAscending(m: Entries, cs: seq<char>)
    requires Ascending(cs)
    ensures Ascending(Lacking(m, cs))
    decreases |cs|
  {
    if cs != [] {
      var tail := Lacking(m, cs[1..]);
      LackingAscending(m, cs[1..]);
      forall i | 0 <= i < |tail|
        ensures cs[0] < tail[i]
      {
        LackingMembers(m, cs[1..], tail[i]);
        var j :| 0 <= j < |cs[1..]| && cs[1..][j] == tail[i];
        assert cs[j + 1] == tail[i];
      }
    }
  }

  /** Line 67: the letters a to d, in that order, that the dict lacks. */
  function MissingLabels(m: Entries): (r: seq<char>)
    ensures Ascending(r)
    ensures forall x :: x in r <==> IsOptionLabel(x) && !HasKey(m, x)
  {
    var abcd := "abcd";
    assert forall x :: x in abcd <==> IsOptionLabel(x);
    LackingAscending(m, abcd);
    forall x
      ensures x in Lacking(m, abcd) <==> x in abcd && !HasKey(m, x)
    {
      LackingMembers(m, abcd, x);
    }
    Lacking(m, abcd)
  }

  /** Line 70: one issue per entry, in dict order, whose content strips to
      nothing (`not content.strip()`, which is `AllSpace` by `StripBlank`). */
  function Empties(m: Entries): (r: seq<OptionIssue>)
    ensures |r| <= |m|
    decreases |m|
  {
    if m == [] then []
    else (if AllSpace(m[0].1) then [EmptyOption(m[0].0)] else []) + Empties(m[1..])
  }

  /** No empty-option issue exactly when every entry has content. */
  lemma NoEmptiesIff(m: Entries)
    ensures Empties(m) == [] <==> forall i :: 0 <= i < |m| ==> Strip(m[i].1) != []
  {
    NoBlankIff(m);
    forall i | 0 <= i < |m|
      ensures Strip(m[i].1) != [] <==> !AllSpace(m[i].1)
    {
      StripBlank(m[i].1);
    }
  }

  /** The same with blankness checked character by character. */
  lemma {:induction false} NoBlankIff(m: Entries)
    ensures Empties(m) == [] <==> forall i :: 0 <= i < |m| ==> !AllSpace(m[i].1)
    decreases |m|
  {
    if m != [] {
      NoBlankIff(m[1..]);
      assert forall i :: 1 <= i < |m| ==> m[i] == m[1..][i - 1];
    }
  }

  /** Every issue is an empty-option issue for a blank entry. */
  lemma {:induction false} EmptiesSound(m: Entries, k: nat)
    requires k < |Empties(m)|
    ensures Empties(m)[k].EmptyOption?
    ensures exists i :: 0 <= i < |m| && m[i].0 == Empties(m)[k].letter && Strip(m[i].1) == []
    decreases |m|
  {
    var own := if AllSpace(m[0].1) then [EmptyOption(m[0].0)] else [];
    assert Empties(m) == own + Empties(m[1..]);
    if k < |own| {
      StripBlank(m[0].1);
    } else {
      EmptiesSound(m[1..], k - |own|);
      var i :| 0 <= i < |m[1..]| && m[1..][i].0 == Empties(m)[k].letter && Strip(m[1..][i].1) == [];
      assert m[i + 1] == m[1..][i];
    }
  }

  /** The issues keep the dict's order: those of the front entries come
      before those of the later ones. */
  lemma {:induction false} EmptiesAppend(m1: Entries, m2: Entries)
    ensures Empties(m1 + m2) == Empties(m1) + Empties(m2)
    decreases |m1|
  {
    if m1 == [] {
      assert m1 + m2 == m2;
    } else {
      var own := if AllSpace(m1[0].1) then [EmptyOption(m1[0].0)] else [];
      assert (m1 + m2)[0] == m1[0];
      assert (m1 + m2)[1..] == m1[1..] + m2;
      assert Empties(m1 + m2) == own + Empties(m1[1..] + m2);
      EmptiesAppend(m1[1..], m2);
      assert Empties(m1) == own + Empties(m1[1..]);
    }
  }

  /** Every entry whose content strips to nothing is reported. */
  lemma {:induction false} EmptiesComplete(m: Entries, i: nat)
    requires i < |m| && Strip(m[i].1) == []
    ensures EmptyOption(m[i].0) in Empties(m)
    decreases i
  {
    StripBlank(m[i].1);
    EmptiesBlank(m, i);
  }

  lemma {:induction false} EmptiesBlank(m: Entries, i: nat)
    requires i < |m| && AllSpace(m[i].1)
    ensures EmptyOption(m[i].0) in Empties(m)
    decreases i
  {
    if i == 0 {
      assert Empties(m)[0] == EmptyOption(m[0].0);
    } else {
      assert m[1..][i - 1] == m[i];
      EmptiesBlank(m[1..], i - 1);
    }
  }

  /** Position of the first entry whose content is `c`, or |m| when none is. */
  function ContentIndex(m: Entries, c: string): (i: nat)
    ensures i <= |m|
    ensures forall j :: 0 <= j < i ==> m[j].1 != c
    ensures i < |m| ==> m[i].1 == c
    decreases |m|
  {
    if m == [] then 0
    else if m[0].1 == c then 0
    else
      var i := 1 + ContentIndex(m[1..], c);
      assert forall j :: 1 <= j < i ==> m[j] == m[1..][j - 1];
      i
  }

  /** The position that holds the first entry with content `c` is `ContentIndex`. */
  lemma ContentIndexIs(m: Entries, c: string, i: nat)
    requires i <= |m|
    requires forall j :: 0 <= j < i ==> m[j].1 != c
    requires i < |m| ==> m[i].1 == c
    ensures ContentIndex(m, c) == i
  {
  }

  /** An entry added at the end changes the first position of a content only
      when no earlier entry has it. */
  lemma ContentIndexExtend(front: Entries, e: (char, string), c: string)
    ensures ContentIndex(front + [e], c) ==
              if ContentIndex(front, c) < |front| then ContentIndex(front, c) else if e.1 == c then |front| else |front| + 1
  {
    var m := front + [e];
    var i := ContentIndex(front, c);
    assert forall j :: 0 <= j < |front| ==> m[j] == front[j];
    if i < |front| {
      ContentIndexIs(m, c, i);
    } else if e.1 == c {
      ContentIndexIs(m, c, |front|);
    } else {
      ContentIndexIs(m, c, |m|);
    }
  }

  /** What line 73 reports for entry `e` given `seen`: its content was met
      before, under the label `seen` remembers. */
  function Reported(seen: map<string, char>, e: (char, string)): seq<OptionIssue> {
    if e.1 in seen then [DuplicateContent(seen[e.1], e.0, e.1)] else []
  }

  /** Line 74: `seen` learns a content only the first time it is met. */
  function Remember(seen: map<string, char>, e: (char, string)): map<string, char> {
    if e.1 in seen then seen else seen[e.1 := e.0]
  }

  /** Lines 71-74: the loop over the entries in dict order. */
  function Repeats(m: Entries, seen: map<string, char>): seq<OptionIssue>
    decreases |m|
  {
    if m == [] then [] else Reported(seen, m[0]) + Repeats(m[1..], Remember(seen, m[0]))
  }

  /** The same report stated entry by entry: an entry is reported when an
      earlier entry has its content, together with the earliest such entry. */
  function RepeatsReference(m: Entries): seq<OptionIssue>
    decreases |m|
  {
    if m == [] then []
    else
      var front := m[..|m| - 1];
      var e := m[|m| - 1];
      var f := ContentIndex(front, e.1);
      RepeatsReference(front) + (if f < |front| then [DuplicateContent(front[f].0, e.0, e.1)] else [])
  }

  /** The `seen` dict once the entries `pre` have been visited. */
  function SeenAfter(pre: Entries): map<string, char>
    decreases |pre|
  {
    if pre == [] then map[] else Remember(SeenAfter(pre[..|pre| - 1]), pre[|pre| - 1])
  }

  /** `seen` maps each content met to the label of the first entry that had it. */
  lemma {:induction false} SeenAfterFirst(pre: Entries, c: string)
    ensures c in SeenAfter(pre) <==> ContentIndex(pre, c) < |pre|
    ensures c in SeenAfter(pre) ==> SeenAfter(pre)[c] == pre[ContentIndex(pre, c)].0
    decreases |pre|
  {
    if pre != [] {
      var front := pre[..|pre| - 1];
      var e := pre[|pre| - 1];
      SeenAfterFirst(front, c);
      assert pre == front + [e];
      ContentIndexExtend(front, e, c);
      assert ContentIndex(front, c) < |front| ==> pre[ContentIndex(front, c)] == front[ContentIndex(front, c)];
    }
  }

  /** One step of the loop agrees with one more entry of the reference. */
  lemma RepeatsStep(m: Entries, i: nat)
    requires i < |m|
    ensures RepeatsReference(m[..i + 1]) == RepeatsReference(m[..i]) + Reported(SeenAfter(m[..i]), m[i])
    ensures SeenAfter(m[..i + 1]) == Remember(SeenAfter(m[..i]), m[i])
  {
    assert m[..i + 1][..i] == m[..i];
    SeenAfterFirst(m[..i], m[i].1);
  }

  /** The loop, started on entry `i` with the `seen` of the entries before
      it, continues the reference report of those entries to the whole. */
  lemma {:induction false} RepeatsContinue(m: Entries, i: nat)
    requires i <= |m|
    ensures RepeatsReference(m[..i]) + Repeats(m[i..], SeenAfter(m[..i])) == RepeatsReference(m)
    decreases |m| - i
  {
    if i == |m| {
      assert m[..i] == m;
    } else {
      var seen := SeenAfter(m[..i]);
      var here := Reported(seen, m[i]);
      var rest := Repeats(m[i + 1..], Remember(seen, m[i]));
      RepeatsUnfold(m, i, seen);
      RepeatsStep(m, i);
      RepeatsContinue(m, i + 1);
      assert RepeatsReference(m[..i]) + (here + rest) == (RepeatsReference(m[..i]) + here) + rest;
    }
  }

  /** One turn of the loop at entry `i`. */
  lemma RepeatsUnfold(m: Entries, i: nat, seen: map<string, char>)
    requires i < |m|
    ensures Repeats(m[i..], seen) == Reported(seen, m[i]) + Repeats(m[i + 1..], Remember(seen, m[i]))
  {
    assert m[i..][1..] == m[i + 1..];
  }

  /** Lines 71-74 from an empty `seen` compute the reference report. */
  lemma RepeatsMatchReference(m: Entries)
    ensures Repeats(m, map[]) == RepeatsReference(m)
  {
    RepeatsContinue(m, 0);
    assert m[..0] == [] && m[0..] == m;
  }

  predicate DistinctContents(m: Entries) {
    forall a, b :: 0 <= a < b < |m| ==> m[a].1 != m[b].1
  }

  /** No duplicate-content issue exactly when the contents are pairwise distinct. */
  lemma {:induction false} NoRepeatsIff(m: Entries)
    ensures Repeats(m, map[]) == [] <==> DistinctContents(m)
    decreases |m|
  {
    RepeatsMatchReference(m);
    ReferenceNoRepeatsIff(m);
  }

  lemma {:induction false} ReferenceNoRepeatsIff(m: Entries)
    ensures RepeatsReference(m) == [] <==> DistinctContents(m)
    decreases |m|
  {
    if m != [] {
      var front := m[..|m| - 1];
      var e := m[|m| - 1];
      ReferenceNoRepeatsIff(front);
      assert forall a :: 0 <= a < |front| ==> m[a] == front[a];
      if DistinctContents(m) {
        assert ContentIndex(front, e.1) == |front|;
      } else if ContentIndex(front, e.1) == |front| {
        assert !DistinctContents(front);
      }
    }
  }

  // ---------------------------------------------------------------------
  // Lines 58-74 together: the issues of one question.

  /** The `extracted` dict of the flattened text. */
  function Extracted(full: string): (m: Entries)
    ensures DistinctKeys(m)
  {
    Captured(Spans(full, 0))
  }

  /** The issues found from the labels of all markers and the `extracted`
      dict, in the order lines 66-74 add them. */
  function FoundIssues(labels: seq<char>, extracted: Entries): seq<OptionIssue> {
    var invalid := Invalid(labels);
    var missing := MissingLabels(extracted);
    (if invalid == [] then [] else [InvalidLabels(SortedSet(invalid))])
    + (if missing == [] then [] else [MissingOptions(missing)])
    + Empties(extracted)
    + Repeats(extracted, map[])
  }

  /** The issues of one question: its option blocks flattened, then checked.
      There are none exactly when the flattened text is clean. */
  function QuestionIssues(blocks: seq<string>): (r: seq<OptionIssue>)
    ensures var full := Flatten(blocks);
            r == [] <==> Clean(MarkerLabels(full, 0), Extracted(full))
  {
    var full := Flatten(blocks);
    NoIssuesIffClean(MarkerLabels(full, 0), Extracted(full));
    FoundIssues(MarkerLabels(full, 0), Extracted(full))
  }

  /** Clean options: every marker is a to d, each of a to d has a span, no
      kept span is blank and no two kept spans say the same. */
  predicate Clean(labels: seq<char>, extracted: Entries) {
    && (forall x :: x in labels ==> IsOptionLabel(x))
    && (forall x :: IsOptionLabel(x) ==> HasKey(extracted, x))
    && (forall i :: 0 <= i < |extracted| ==> Strip(extracted[i].1) != [])
    && DistinctContents(extracted)
  }

  /** No issue is found exactly when the options are clean. */
  lemma NoIssuesIffClean(labels: seq<char>, extracted: Entries)
    ensures FoundIssues(labels, extracted) == [] <==> Clean(labels, extracted)
  {
    var invalid := Invalid(labels);
    var missing := MissingLabels(extracted);
    NoEmptiesIff(extracted);
    NoRepeatsIff(extracted);
    assert invalid != [] ==> invalid[0] in invalid;
    assert missing != [] ==> missing[0] in missing;
  }

  // ---------------------------------------------------------------------
  // Lines 66-76: the report text.

  /** Each letter as a one-character string. */
  function Letters(cs: seq<char>): (r: seq<string>)
    ensures |r| == |cs|
    ensures forall k :: 0 <= k < |cs| ==> r[k] == [cs[k]]
  {
    if cs == [] then [] else [[cs[0]]] + Letters(cs[1..])
  }

  /** The wording of one issue. */
  function IssueText(issue: OptionIssue): string {
    match issue
    case InvalidLabels(ls) => "Invalid option labels: " + Join(Letters(ls), ", ")
    case MissingOptions(ls) => "Missing options: " + Join(Letters(ls), ", ")
    case EmptyOption(l) => "Option " + [l] + " is empty"
    case DuplicateContent(a, b, c) => "Duplicate content in " + [a] + " and " + [b] + ": '" + c + "'"
  }

  function IssueTexts(issues: seq<OptionIssue>): (r: seq<string>)
    ensures |r| == |issues|
    ensures forall k :: 0 <= k < |issues| ==> r[k] == IssueText(issues[k])
  {
    if issues == [] then [] else [IssueText(issues[0])] + IssueTexts(issues[1..])
  }

  /** Line 76: the block of one question with issues. */
  function QuestionReport(number: string, issues: seq<OptionIssue>): string {
    "Question " + number + " issues:\n  - " + Join(IssueTexts(issues), "\n  - ")
  }

  /** Each question's number with the issues of its options. */
  function Checked(qs: seq<QuestionRecord>): (r: seq<(string, seq<OptionIssue>)>)
    ensures |r| == |qs|
    ensures forall k :: 0 <= k < |qs| ==> r[k] == (qs[k].number, QuestionIssues(qs[k].options))
  {
    if qs == [] then [] else [(qs[0].number, QuestionIssues(qs[0].options))] + Checked(qs[1..])
  }

  /** The report blocks of the questions that have issues, in order. */
  function ReportLines(checked: seq<(string, seq<OptionIssue>)>): seq<string> {
    if checked == [] then []
    else
      var (number, issues) := checked[0];
      (if issues == [] then [] else [QuestionReport(number, issues)]) + ReportLines(checked[1..])
  }

  const AllClear := "No option issues found."

  /** `validate_options(questions_data)`. */
  function ValidateOptions(qs: seq<QuestionRecord>): string {
    var lines := ReportLines(Checked(qs));
    if lines == [] then AllClear else Join(lines, "\n")
  }

  /** One report block per question with issues, each naming its question. */
  lemma {:induction false} ReportLinesCover(checked: seq<(string, seq<OptionIssue>)>)
    ensures ReportLines(checked) == [] <==> forall k :: 0 <= k < |checked| ==> checked[k].1 == []
    ensures forall j :: 0 <= j < |ReportLines(checked)| ==> "Question " <= ReportLines(checked)[j]
    decreases |checked|
  {
    if checked != [] {
      ReportLinesCover(checked[1..]);
      assert forall k :: 1 <= k < |checked| ==> checked[k] == checked[1..][k - 1];
    }
  }

  /** The all-clear sentence comes back exactly when no question has an
      issue; otherwise the report opens with the first question's block. */
  lemma ValidateOptionsClear(qs: seq<QuestionRecord>)
    ensures ValidateOptions(qs) == AllClear <==> forall k :: 0 <= k < |qs| ==> QuestionIssues(qs[k].options) == []
  {
    var checked := Checked(qs);
    var lines := ReportLines(checked);
    ReportLinesCover(checked);
    if lines != [] {
      var r := Join(lines, "\n");
      assert "Question " <= lines[0] <= r;
      assert r[0] == 'Q';
    }
  }
}

=== FILE: report.dfy ===
/** `build_sequence_report` (app.py:79-89): the lines that describe the
    numbering of one tag, joined with newlines. */
module SequenceReport {
  import opened Maybe
  import opened Strings
  import opened Issues

  /** Each number in decimal. */
  function Decimals(v: seq<nat>): (r: seq<string>)
    ensures |r| == |v|
    ensures forall k :: 0 <= k < |v| ==> r[k] == Decimal(v[k])
  {
    if v == [] then [] else [Decimal(v[0])] + Decimals(v[1..])
  }

  /** `str(v)` of a list of integers: `[1, 3]`. */
  function ListText(v: seq<nat>): string {
    "[" + Join(Decimals(v), ", ") + "]"
  }

  function ErrorLine(tag: string, p: (nat, nat)): (line: string)
    ensures |line| > 1 && line[0] == 'A' && line[1] == 'f'
  {
    "After " + tag + " number " + Decimal(p.0) + ", found " + Decimal(p.1) + " \U{2014} sequence is incorrect."
  }

  function ErrorLines(tag: string, errors: seq<(nat, nat)>): (r: seq<string>)
    ensures |r| == |errors|
    ensures forall k :: 0 <= k < |errors| ==> r[k] == ErrorLine(tag, errors[k])
  {
    if errors == [] then [] else [ErrorLine(tag, errors[0])] + ErrorLines(tag, errors[1..])
  }

  function AllClearLine(tag: string): (line: string)
    ensures |line| > 1 && line[0] == 'A' && line[1] == 'l'
  {
    "All " + tag + "s are in correct sequence and unique."
  }

  /** The report's lines: a title, the count of numbered elements, one line
      per kind of defect found (one per sequence error), and the all-clear
      line when nothing was found. */
  function ReportLines(tag: string, numbers: seq<Option<nat>>, issues: IssueSet): seq<string> {
    FixedLines(tag, numbers, issues)
    + ErrorLines(tag, issues.sequenceErrors)
    + (if Clear(issues) then [AllClearLine(tag)] else [])
  }

  /** `build_sequence_report(tag, numbers, issues)`. */
  function BuildSequenceReport(tag: string, numbers: seq<Option<nat>>, issues: IssueSet): string {
    Join(ReportLines(tag, numbers, issues), "\n")
  }

  /** The lines before the sequence errors: the title, the count, and one
      line per other kind of defect found. None opens with an 'A'. */
  function FixedLines(tag: string, numbers: seq<Option<nat>>, issues: IssueSet): (lines: seq<string>)
    ensures |lines| == 2 + (if issues.missing == [] then 0 else 1) + (if issues.duplicates == [] then 0 else 1)
    ensures forall j :: 0 <= j < |lines| ==> |lines[j]| > 0 && lines[j][0] != 'A'
  {
    var head := [TitleLine(tag), CountLine(tag, |Present(numbers)|)];
    var missing := if issues.missing == [] then [] else [MissingLine(tag, issues.missing)];
    var duplicates := if issues.duplicates == [] then [] else [DuplicateLine(tag, issues.duplicates)];
    NoneOpensWithAAppend(head, missing);
    NoneOpensWithAAppend(head + missing, duplicates);
    head + missing + duplicates
  }

  /** No line opens with an 'A', the first letter of the all-clear line. */
  predicate NoneOpensWithA(lines: seq<string>) {
    forall j :: 0 <= j < |lines| ==> |lines[j]| > 0 && lines[j][0] != 'A'
  }

  lemma NoneOpensWithAAppend(p: seq<string>, q: seq<string>)
    requires NoneOpensWithA(p) && NoneOpensWithA(q)
    ensures NoneOpensWithA(p + q)
  {
    assert forall j :: |p| <= j < |p + q| ==> (p + q)[j] == q[j - |p|];
  }

  function TitleLine(tag: string): (line: string)
    ensures |line| > 0 && line[0] == 'V'
  {
    "Validation for " + tag + "s"
  }

  function CountLine(tag: string, count: nat): (line: string)
    ensures |line| > 0 && line[0] == 'T'
  {
    "Total numbered " + tag + "s found: " + Decimal(count)
  }

  function MissingLine(tag: string, missing: seq<nat>): (line: string)
    ensures |line| > 0 && line[0] == 'M'
  {
    "Missing " + tag + " numbers: " + ListText(missing)
  }

  function DuplicateLine(tag: string, duplicates: seq<nat>): (line: string)
    ensures |line| > 0 && line[0] == 'D'
  {
    "Duplicate " + tag + " numbers: " + ListText(duplicates)
  }

  /** The report ends with the all-clear line exactly when no defect of any
      kind was found; the line appears nowhere else. */
  lemma AllClearIff(tag: string, numbers: seq<Option<nat>>, issues: IssueSet)
    ensures AllClearLine(tag) in ReportLines(tag, numbers, issues) <==> Clear(issues)
  {
    var all := AllClearLine(tag);
    var fixed := FixedLines(tag, numbers, issues);
    var errors := ErrorLines(tag, issues.sequenceErrors);
    assert all !in fixed && all !in errors;
  }

  /** The number of lines, and every sequence error gets its own line. */
  lemma ErrorLinesListed(tag: string, numbers: seq<Option<nat>>, issues: IssueSet)
    ensures |ReportLines(tag, numbers, issues)| ==
              2 + (if issues.missing == [] then 0 else 1) + (if issues.duplicates == [] then 0 else 1)
              + |issues.sequenceErrors| + (if Clear(issues) then 1 else 0)
    ensures forall p :: p in issues.sequenceErrors ==> ErrorLine(tag, p) in ReportLines(tag, numbers, issues)
  {
    var fixed := FixedLines(tag, numbers, issues);
    var errors := ErrorLines(tag, issues.sequenceErrors);
    var tail := if Clear(issues) then [AllClearLine(tag)] else [];
    forall p | p in issues.sequenceErrors
      ensures ErrorLine(tag, p) in fixed + errors + tail
    {
      var k :| 0 <= k < |issues.sequenceErrors| && issues.sequenceErrors[k] == p;
      InMiddle(fixed, errors, tail, k);
    }
  }

  /** The sequence-error lines come right after the fixed lines, in the
      order of the errors. */
  lemma ErrorLinesInOrder(tag: string, numbers: seq<Option<nat>>, issues: IssueSet)
    ensures forall k :: 0 <= k < |issues.sequenceErrors| ==>
              |FixedLines(tag, numbers, issues)| + k < |ReportLines(tag, numbers, issues)| &&
              ReportLines(tag, numbers, issues)[|FixedLines(tag, numbers, issues)| + k] == ErrorLine(tag, issues.sequenceErrors[k])
  {
    var fixed := FixedLines(tag, numbers, issues);
    var errors := ErrorLines(tag, issues.sequenceErrors);
    var tail := if Clear(issues) then [AllClearLine(tag)] else [];
    forall k | 0 <= k < |issues.sequenceErrors|
      ensures (fixed + errors + tail)[|fixed| + k] == errors[k]
    {
      InMiddle(fixed, errors, tail, k);
    }
  }

  lemma InMiddle(a: seq<string>, b: seq<string>, c: seq<string>, k: nat)
    requires k < |b|
    ensures (a + b + c)[|a| + k] == b[k]
    ensures b[k] in a + b + c
  {
    assert (a + b + c)[|a| + k] == b[k];
  }

  /** The report of `detect_issues` ends with the all-clear line exactly when
      the present numbers are none, or count up by one from 0 or 1. */
  lemma ReportOfDetectedIssues(tag: string, numbers: seq<Option<nat>>)
    ensures AllClearLine(tag) in ReportLines(tag, numbers, DetectIssues(numbers)) <==>
              (Present(numbers) == [] || (Present(numbers)[0] <= 1 && IsRun(Present(numbers))))
  {
    AllClearIff(tag, numbers, DetectIssues(numbers));
    NoIssuesIff(numbers);
  }

  /** The count line reports how many entries carry a number: it reads back
      as that count. */
  lemma CountLineReadsBack(tag: string, numbers: seq<Option<nat>>, issues: IssueSet)
    ensures var line := ReportLines(tag, numbers, issues)[1];
            var prefix := "Total numbered " + tag + "s found: ";
            prefix <= line && AllDigits(line[|prefix|..]) && Value(line[|prefix|..]) == |Present(numbers)|
  {
    var prefix := "Total numbered " + tag + "s found: ";
    var line := CountLine(tag, |Present(numbers)|);
    assert ReportLines(tag, numbers, issues)[1] == line;
    assert line[|prefix|..] == Decimal(|Present(numbers)|);
  }
}

=== FILE: strings.dfy ===
/** The pieces of Python's `str` behaviour the validators rely on:
    whitespace, `strip()`, runs of decimal digits and `int()` of such a run. */
module Strings {

  /** Whitespace as Python's `str.isspace()` and the `\s` class of its `re`
      module define it for text (both read the same table): the Unicode
      White_Space characters together with the separators U+001C..U+001F.
      U+200B ZERO WIDTH SPACE is not whitespace. */
  predicate IsSpace(c: char) {
    || ('\t' <= c <= '\r')
    || ('\U{1C}' <= c <= ' ')
    || c == '\U{85}' || c == '\U{A0}' || c == '\U{1680}'
    || ('\U{2000}' <= c <= '\U{200A}')
    || c == '\U{2028}' || c == '\U{2029}' || c == '\U{202F}'
    || c == '\U{205F}' || c == '\U{3000}'
  }

  predicate IsDigit(c: char) {
    '0' <= c <= '9'
  }

  predicate AllSpace(s: string) {
    forall i :: 0 <= i < |s| ==> IsSpace(s[i])
  }

  predicate AllDigits(s: string) {
    forall i :: 0 <= i < |s| ==> IsDigit(s[i])
  }

  /** Length of the longest whitespace prefix of `s`. */
  function SpaceRun(s: string): (n: nat)
    ensures n <= |s|
    ensures AllSpace(s[..n])
    ensures n == |s| || !IsSpace(s[n])
    decreases |s|
  {
    if |s| > 0 && IsSpace(s[0]) then 1 + SpaceRun(s[1..]) else 0
  }

  /** Length of the longest whitespace suffix of `s`. */
  function TrailingSpace(s: string): (n: nat)
    ensures n <= |s|
    ensures AllSpace(s[|s| - n..])
    ensures n == |s| || !IsSpace(s[|s| - n - 1])
    decreases |s|
  {
    if |s| > 0 && IsSpace(s[|s| - 1]) then 1 + TrailingSpace(s[..|s| - 1]) else 0
  }

  /** Length of the longest prefix of `s` made of decimal digits: what the
      greedy `\d+` of a regular expression consumes. */
  function DigitRun(s: string): (n: nat)
    ensures n <= |s|
    ensures AllDigits(s[..n])
    ensures n == |s| || !IsDigit(s[n])
    decreases |s|
  {
    if |s| > 0 && IsDigit(s[0]) then 1 + DigitRun(s[1..]) else 0
  }

  /** Python's `s.strip()`: `s` without its leading and trailing whitespace.
      When `s` is all whitespace the two runs overlap and nothing is left. */
  function Strip(s: string): (r: string)
    ensures |r| <= |s|
    ensures r == [] || (!IsSpace(r[0]) && !IsSpace(r[|r| - 1]))
  {
    var a := SpaceRun(s);
    var e := |s| - TrailingSpace(s);
    if e <= a then [] else s[a..e]
  }

  /** What `strip()` removes is whitespace: the result is the part of `s`
      between an all-whitespace prefix and an all-whitespace suffix. */
  lemma StripIsInfix(s: string)
    ensures exists i :: 0 <= i <= |s| - |Strip(s)| && Strip(s) == s[i..i + |Strip(s)|]
                       && AllSpace(s[..i]) && AllSpace(s[i + |Strip(s)|..])
  {
    var a := SpaceRun(s);
    var e := |s| - TrailingSpace(s);
    if e <= a {
      assert forall k :: 0 <= k < e ==> s[..e][k] == s[..a][k];
      assert Strip(s) == s[e..e];
    } else {
      assert Strip(s) == s[a..e];
    }
  }

  /** A string with no whitespace at either end is its own strip. */
  lemma StripUnpadded(s: string)
    requires s == [] || (!IsSpace(s[0]) && !IsSpace(s[|s| - 1]))
    ensures Strip(s) == s
  {
    StripAt(s, 0, |s|);
    assert s[0..|s|] == s;
  }

  /** Stripping twice is stripping once. */
  lemma StripIdempotent(s: string)
    ensures Strip(Strip(s)) == Strip(s)
  {
    StripUnpadded(Strip(s));
  }

  function DigitValue(c: char): nat
    requires IsDigit(c)
  {
    c as int - '0' as int
  }

  function DigitChar(d: nat): (c: char)
    requires d < 10
    ensures IsDigit(c) && DigitValue(c) == d
  {
    ('0' as int + d) as char
  }

  /** Python's `int(ds)` for a non-empty run of ASCII digits (leading zeros allowed). */
  function Value(ds: string): nat
    requires AllDigits(ds)
    decreases |ds|
  {
    if ds == [] then 0 else 10 * Value(ds[..|ds| - 1]) + DigitValue(ds[|ds| - 1])
  }

  /** The decimal spelling of `n`, as `str(n)` writes it. */
  function Decimal(n: nat): (r: string)
    ensures 0 < |r| && AllDigits(r)
    ensures Value(r) == n
    ensures r[0] == '0' ==> r == "0"
    decreases n
  {
    if n < 10 then [DigitChar(n)]
    else
      var r := Decimal(n / 10) + [DigitChar(n % 10)];
      assert r[..|r| - 1] == Decimal(n / 10);
      r
  }

  /** The digit run of `s` has length `d` when the first `d` characters are
      digits and the next one, if any, is not. */
  lemma {:induction false} DigitRunIs(s: string, d: nat)
    requires d <= |s| && AllDigits(s[..d]) && (d == |s| || !IsDigit(s[d]))
    ensures DigitRun(s) == d
    decreases d
  {
    if d > 0 {
      assert s[1..][..d - 1] == s[1..d];
      DigitRunIs(s[1..], d - 1);
    }
  }

  /** The same for the whitespace run. */
  lemma {:induction false} SpaceRunIs(s: string, n: nat)
    requires n <= |s| && AllSpace(s[..n]) && (n == |s| || !IsSpace(s[n]))
    ensures SpaceRun(s) == n
    decreases n
  {
    if n > 0 {
      assert s[1..][..n - 1] == s[1..n];
      SpaceRunIs(s[1..], n - 1);
    }
  }

  /** The digit run of `ds + t` is exactly `ds` when `t` does not start with a digit. */
  lemma DigitRunStopsAt(ds: string, t: string)
    requires AllDigits(ds)
    requires t == [] || !IsDigit(t[0])
    ensures DigitRun(ds + t) == |ds|
  {
    var n := DigitRun(ds + t);
    assert |ds| < |ds + t| ==> (ds + t)[|ds|] == t[0];
  }

  /** The trailing whitespace run of `s` has length `n` when the last `n`
      characters are whitespace and the one before them, if any, is not. */
  lemma {:induction false} TrailingSpaceIs(s: string, n: nat)
    requires n <= |s| && AllSpace(s[|s| - n..]) && (n == |s| || !IsSpace(s[|s| - n - 1]))
    ensures TrailingSpace(s) == n
    decreases n
  {
    if n > 0 {
      var f := s[..|s| - 1];
      assert s[|s| - 1] == s[|s| - n..][n - 1];
      assert f[|f| - (n - 1)..] == s[|s| - n..|s| - 1];
      assert n - 1 < |f| ==> f[|f| - (n - 1) - 1] == s[|s| - n - 1];
      TrailingSpaceIs(f, n - 1);
    }
  }

  /** `strip()` of `s` is `s[p..q]` when only whitespace lies before `p` and
      after `q`, and `s[p..q]` has no whitespace at either end. */
  lemma StripAt(s: string, p: nat, q: nat)
    requires p <= q <= |s|
    requires AllSpace(s[..p]) && AllSpace(s[q..])
    requires p == q || (!IsSpace(s[p]) && !IsSpace(s[q - 1]))
    ensures Strip(s) == s[p..q]
  {
    if p < q {
      SpaceRunIs(s, p);
      TrailingSpaceIs(s, |s| - q);
    } else {
      assert forall k :: 0 <= k < |s| ==> s[k] == if k < p then s[..p][k] else s[q..][k - q];
      assert s[..|s|] == s;
      SpaceRunIs(s, |s|);
    }
  }

  /** The same for a slice: `s[a..e]` strips to `s[p..q]` when whitespace
      alone lies between `a` and `p` and between `q` and `e`. */
  lemma StripSlice(s: string, a: nat, p: nat, q: nat, e: nat)
    requires a <= p <= q <= e <= |s|
    requires AllSpace(s[a..p]) && AllSpace(s[q..e])
    requires s[p..q] == [] || (!IsSpace(s[p..q][0]) && !IsSpace(s[p..q][q - p - 1]))
    ensures Strip(s[a..e]) == s[p..q]
  {
    var t := s[a..e];
    SliceOfSlice(s, a, e, p - a, q - a);
    PrefixOfSlice(s, a, e, p - a);
    SuffixOfSlice(s, a, e, q - a);
    assert t[p - a..q - a] == s[p..q];
    assert t[..p - a] == s[a..p];
    assert t[q - a..] == s[q..e];
    if p < q {
      assert t[p - a] == s[p..q][0];
      assert t[q - a - 1] == s[p..q][q - p - 1];
    }
    StripAt(t, p - a, q - a);
  }

  /** A slice of a slice is a slice of the original. */
  lemma SliceOfSlice(s: string, a: nat, e: nat, i: nat, j: nat)
    requires a <= e <= |s| && i <= j <= e - a
    ensures s[a..e][i..j] == s[a + i..a + j]
  {
    assert forall k :: 0 <= k < j - i ==> s[a..e][i..j][k] == s[a + i + k];
  }

  lemma PrefixOfSlice(s: string, a: nat, e: nat, j: nat)
    requires a <= e <= |s| && j <= e - a
    ensures s[a..e][..j] == s[a..a + j]
  {
    assert forall k :: 0 <= k < j ==> s[a..e][..j][k] == s[a + k];
  }

  lemma SuffixOfSlice(s: string, a: nat, e: nat, i: nat)
    requires a <= e <= |s| && i <= e - a
    ensures s[a..e][i..] == s[a + i..e]
  {
    assert forall k :: 0 <= k < e - a - i ==> s[a..e][i..][k] == s[a + i + k];
  }

  /** `not s.strip()` holds exactly for the all-whitespace strings. */
  lemma StripBlank(s: string)
    ensures Strip(s) == [] <==> AllSpace(s)
  {
    var a := SpaceRun(s);
    var n := TrailingSpace(s);
    if AllSpace(s) {
      assert s[..|s|] == s;
      SpaceRunIs(s, |s|);
    }
    if |s| - n <= a {
      forall k | 0 <= k < |s|
        ensures IsSpace(s[k])
      {
        assert k < a ==> s[k] == s[..a][k];
        assert k >= |s| - n ==> s[k] == s[|s| - n..][k - (|s| - n)];
      }
    }
  }

  /** Strings joined with a separator between neighbours: Python's `sep.join(ss)`. */
  function Join(ss: seq<string>, sep: string): (r: string)
    ensures ss != [] ==> ss[0] <= r
    ensures |ss| == 1 ==> r == ss[0]
    decreases |ss|
  {
    if ss == [] then []
    else if |ss| == 1 then ss[0]
    else ss[0] + sep + Join(ss[1..], sep)
  }
}
